=== FILE: README.md ===
# customer-api, modelled in Dafny

A model of the domain and use-case core of `customer-api`, a NestJS service
that stores customers in DynamoDB. A customer has a uuid id, a name, an email,
one tax document and two timestamps. The tax document is a Brazilian CPF
(11 characters) or CNPJ (14 characters).

The model covers these parts:

- **Documents.** `DocumentValueObject` holds the `Document` value object.
  `DocumentValidator` holds the zod schema it is validated by.
- **Customers.** `CustomerEntity` holds the `Customer` entity, with its
  factories and the three mutators. `CustomerValidator` holds its schema, and
  `EntityBase` holds the identity base class.
- **Persistence.** `DynamoDbModel` holds the mapping between entity, flat
  model and attribute map. `DynamoDbRepository` holds the DynamoDB repository:
  put, get, update, delete and the paginated `findAll`.
- **Use cases.** `CreateCustomer`, `FindByIdCustomer`, `UpdateCustomer`,
  `DeleteCustomer` and `SearchCustomer`.

The model is built on a few conventions:

- **Entities** are immutable datatypes. Constructors and factories return a
  `Result` holding either the value or the exception the source would throw.
- **Mutators** return the object as it stands afterwards, together with the
  exception thrown, if any. `updateName` and `updateEmail` assign the new
  value before validating, so after a failure the object holds the rejected
  value. The model shows that, without any rollback.
- **Validation failures** are modelled as the set of schema rules that were
  broken. Zod's rules interact like this:
  - a bad enum, an invalid `Date` or a missing document stops the object
    schema, so the `.refine` checks after it do not run;
  - a string rule failure still lets the refinements run;
  - `.trim()` changes the value the length rules see, but not the string
    the `Document` stores.
- **The repository** the use cases depend on is a map from id to customer
  (`Repository.Store`).
- **The DynamoDB table** is a map from key to attribute map. Lemmas show that
  put, get, update and delete on the table agree with the store operations
  through the mapping.
- **The two scans of `findAll`** (the count and the page) are function
  parameters.
- **Each use case** returns a `Run`: the repository calls it made, the store
  afterwards, and its result or exception.
- **The clock and id generator** are parameters: `now` is an integer instant
  and `freshId` the generated uuid.
- **Timestamps** are stored as signed decimal text. `EncodeDate` and
  `DecodeDate` stand in for `toISOString` and `new Date(string)`, with a proved
  round trip. The empty string reads as an invalid date.

## Model

| member | source | states |
|---|---|---|
| `EntityBase.EqualsIsById` | src/domain/shared/shared/entities/entity.ts:26-34 | `equals` is false for an absent entity; otherwise it is true exactly when the ids match |
| `EntityBase.EqualsIsEquivalence` | src/domain/shared/shared/entities/entity.ts:26-34 | `equals` is reflexive, symmetric and transitive, and ignores different timestamps |
| `EntityBase.HasChangedKeepsIdentity` | src/domain/shared/shared/entities/entity.ts:22-24 | after `hasChanged` the entity equals its former self; with a clock that does not run back, createdAt ≤ updatedAt still holds |
| `DocumentTypes.ParseLabel` | src/domain/validators/document.value-object.validator.ts:42-44 | the enum parse accepts exactly the two labels, and is the inverse of the enum's string value |
| `DocumentValidator.Issues` | src/domain/validators/document.value-object.validator.ts:34-74 | for each schema rule, when it is reported: trimmed length below 11 or above 14, type not CPF/CNPJ, an invalid date; the two refinements only when nothing aborted |
| `DocumentValidator.IssuesEmptyIffWellFormed` | src/domain/validators/document.value-object.validator.ts:34-74 | no rule is broken exactly when type is known, dates are valid and ordered, and the trimmed length equals the type's required length |
| `DocumentValidator.Validate` | src/domain/validators/document.value-object.validator.ts:12-32 | passes silently exactly on well-formed fields; otherwise throws ValidationDomainException from DocumentValueObjectZodValidator listing every broken rule |
| `DocumentValidator.RulesReported` | src/domain/validators/document.value-object.validator.ts:37-74 | each custom rule, broken alone, makes validation fail with that rule reported; the length-bound and enum rules fire whatever else holds, the refinements only when nothing aborted |
| `DocumentValidator.AcceptedLengthIs11Or14` | src/domain/validators/document.value-object.validator.ts:37-74 | an accepted document has trimmed length 11 or 14, never 12 or 13 |
| `DocumentValueObject.With` | src/domain/value-objects/document.value-object.ts:17-25 | construction succeeds exactly on well-formed fields, keeps them all, and yields a valid Document; a failure carries the validator's issues |
| `DocumentValueObject.CreateLegalDocument` | src/domain/value-objects/document.value-object.ts:27-33 | succeeds exactly when the trimmed input has 14 characters; result is CNPJ, keeps the raw string, and is stamped now for both timestamps |
| `DocumentValueObject.CreateIndividualDocument` | src/domain/value-objects/document.value-object.ts:35-41 | succeeds exactly when the trimmed input has 11 characters; result is CPF, keeps the raw string, and is stamped now for both timestamps |
| `DocumentValueObject.WithOfOwnFields` | src/domain/value-objects/document.value-object.ts:43-50 | `with` on the fields of a valid document rebuilds that same document |
| `DocumentValueObject.ValidLength` | src/domain/value-objects/document.value-object.ts:18-19 | a valid document's trimmed length is its type's length, and the raw string is never shorter |
| `DocumentValueObject.PaddedDocumentKeptRaw` | src/domain/value-objects/document.value-object.ts:56-58 | an 11-character CPF padded with whitespace is accepted and stored with the padding (13 characters) |
| `DocumentValueObject.FactoriesOnPlainDigits` | src/domain/value-objects/document.value-object.ts:27-41 | on input without whitespace, the factories accept exactly raw length 11 (CPF) and 14 (CNPJ) |
| `CustomerValidator.Issues` | src/domain/validators/customer.entity.validator.ts:34-57 | for each rule, when it is reported: non-uuid id, empty name, name over 255, bad email, missing document, invalid dates; createdAt > updatedAt only when nothing aborted |
| `CustomerValidator.IssuesEmptyIffWellFormed` | src/domain/validators/customer.entity.validator.ts:34-57 | no rule is broken exactly on a well-formed customer |
| `CustomerValidator.Validate` | src/domain/validators/customer.entity.validator.ts:12-32 | passes exactly on well-formed fields; otherwise throws ValidationDomainException from CustomerEntityZodValidator with a non-empty issue set |
| `CustomerValidator.OrderRejectedRegardless` | src/domain/validators/customer.entity.validator.ts:44-54 | createdAt > updatedAt is rejected whatever the id, name and email are |
| `CustomerValidator.OnlyNameIssues` | src/domain/validators/customer.entity.validator.ts:38 | when every other field is well formed, the name rule is the only one reported |
| `CustomerValidator.StampedIssues` | src/domain/validators/customer.entity.validator.ts:34-57 | a customer with a document and equal valid stamps, as the factories build it, breaks exactly the failing ones among the id, name and email rules |
| `CustomerEntity.With` | src/domain/entities/customer.entity.ts:73-82 | succeeds exactly on well-formed fields and keeps them all; a failure carries the validator's issues |
| `CustomerEntity.CreateLegalCustomer` | src/domain/entities/customer.entity.ts:41-55 | succeeds exactly when trimmed document has 14 characters, the fresh id is a uuid, the name has 1..255 characters and the email is accepted; a CNPJ customer with the given fields, the customer and its document both stamped now; a wrong-length document fails in the document validator first; with an accepted document, a failure is the customer validator's exception listing exactly the id, name and email rules broken |
| `CustomerEntity.CreateIndividualCustomer` | src/domain/entities/customer.entity.ts:57-71 | the same with 11 characters and CPF, including the customer validator's exception when the document is accepted |
| `CustomerEntity.UpdateName` | src/domain/entities/customer.entity.ts:100-104 | the name is always assigned and nothing else changes; succeeds exactly when the customer with that name is well formed; updatedAt becomes now only on success |
| `CustomerEntity.UpdateEmail` | src/domain/entities/customer.entity.ts:106-110 | the email is always assigned and nothing else changes; succeeds exactly when the customer with that email is well formed; updatedAt becomes now only on success |
| `CustomerEntity.UpdateDocument` | src/domain/entities/customer.entity.ts:112-126 | an unknown type throws DomainException and leaves the customer as it was; a wrong-length document also leaves it as it was and throws the document validator's ValidationDomainException; an accepted document is assigned before the customer is validated, so it stays on the object (given raw string and type, created and updated now) even when that validation throws, which happens exactly when the customer with it is not well formed and throws the customer validator's exception with that customer's issues; on success updatedAt is now |
| `CustomerEntity.WithOfOwnFields` | src/domain/entities/customer.entity.ts:73-82 | `with` on the fields of a valid customer rebuilds that same customer |
| `CustomerEntity.UpdateNameOnValid` | src/domain/entities/customer.entity.ts:100-104 | on a valid customer, succeeds exactly for names of 1..255 characters, stays valid and the same entity; on failure the rejected name stays assigned |
| `CustomerEntity.UpdateEmailOnValid` | src/domain/entities/customer.entity.ts:106-110 | on a valid customer, succeeds exactly for accepted emails; on failure the rejected email stays assigned |
| `CustomerEntity.UpdateDocumentOnValid` | src/domain/entities/customer.entity.ts:112-126 | on a valid customer, succeeds exactly when the type is CPF/CNPJ and the trimmed document has that type's length |
| `Repository.Create` | src/domain/repositories/customer.repository.ts:11 | the customer is stored under its id, every other record is kept, and keying by id is preserved |
| `Repository.FindById` | src/domain/repositories/customer.repository.ts:12 | returns the record under the id, or null when there is none |
| `Repository.Update` | src/domain/repositories/customer.repository.ts:17 | the whole record under the customer's id is replaced, and every other record is kept |
| `Repository.Delete` | src/domain/repositories/customer.repository.ts:18 | only the record under the id is removed |
| `Repository.CreateFindDelete` | src/domain/repositories/customer.repository.ts:10-19 | a created customer is found under its id, is not found after deleting it, and other ids are not affected |
| `DynamoDbModel.FromEntity` | src/infra/database/dynamodb/models/customer.dynamodb.model.ts:25-41 | id, name, email, document string and document type are copied verbatim |
| `DynamoDbModel.FromEntityDates` | src/infra/database/dynamodb/models/customer.dynamodb.model.ts:29-39 | each of the four timestamp strings reads back as the entity's instant |
| `DynamoDbModel.ToItem` | src/infra/database/dynamodb/models/customer.dynamodb.model.ts:105-123 | the item has exactly the six attributes, keyed by id |
| `DynamoDbModel.ReadS` | src/infra/database/dynamodb/models/customer.dynamodb.model.ts:54-59 | `attr.S ?? ''`: a string attribute gives its value, another kind gives '', a missing one throws a TypeError |
| `DynamoDbModel.FromItem` | src/infra/database/dynamodb/models/customer.dynamodb.model.ts:43-61 | a missing top-level attribute throws a TypeError; decoding never fails in any other way |
| `DynamoDbModel.ToEntity` | src/infra/database/dynamodb/models/customer.dynamodb.model.ts:63-78 | succeeds exactly when the document is well formed, the id is a uuid, the name has 1..255 characters, the email is accepted and both stamps decode to ordered dates; on success every field, including the document's own stamps, is carried over and the customer is valid; failures are validation exceptions, from the document validator for a malformed document and from the customer validator otherwise |
| `DynamoDbModel.ItemRoundTrip` | src/infra/database/dynamodb/models/customer.dynamodb.model.ts:43-61 | reading back a written item gives the model it was written from |
| `DynamoDbModel.ExpressionMatchesItem` | src/infra/database/dynamodb/models/customer.dynamodb.model.ts:125-142 | the update expression carries the item's values under `:`-prefixed names and has no id |
| `DynamoDbModel.NonStringReadsEmpty` | src/infra/database/dynamodb/models/customer.dynamodb.model.ts:46-59 | a non-string name reads as ''; a non-map document reads as four empty strings |
| `DynamoDbModel.EntityRoundTrip` | src/infra/database/dynamodb/models/customer.dynamodb.model.ts:25-78 | a valid customer survives entity, model, item, model and back to entity unchanged |
| `DynamoDbModel.MismatchedTypeRejected` | src/infra/database/dynamodb/models/customer.dynamodb.model.ts:63-69 | a stored CPF document whose trimmed length is 14 is refused with a validation exception |
| `DynamoDbRepository.Put` | src/infra/database/dynamodb/customer.dynamodb.repository.ts:25-36 | writes the customer's item under its id and keeps every other item |
| `DynamoDbRepository.Decode` | src/infra/database/dynamodb/customer.dynamodb.repository.ts:53-55 | a stored item fails to decode only with a TypeError or a validation exception |
| `DynamoDbRepository.Get` | src/infra/database/dynamodb/customer.dynamodb.repository.ts:38-58 | a missing key gives null; otherwise the decoded customer, or exactly the exception decoding threw |
| `DynamoDbRepository.UpdateItem` | src/infra/database/dynamodb/customer.dynamodb.repository.ts:168-192 | only the item under the customer's id changes, and it exists afterwards |
| `DynamoDbRepository.UpdateItemOverwrites` | src/infra/database/dynamodb/customer.dynamodb.repository.ts:173-189 | name, email, document, createdAt and updatedAt all take the new values |
| `DynamoDbRepository.UpdateItemIsPut` | src/infra/database/dynamodb/customer.dynamodb.repository.ts:168-192 | over an item with the repository's own layout, or no item, update writes exactly what create writes |
| `DynamoDbRepository.DeleteItem` | src/infra/database/dynamodb/customer.dynamodb.repository.ts:194-204 | removes only the item under the key |
| `DynamoDbRepository.PutRefinesCreate` | src/infra/database/dynamodb/customer.dynamodb.repository.ts:25-36 | create on the table agrees with the store's create |
| `DynamoDbRepository.UpdateItemRefinesUpdate` | src/infra/database/dynamodb/customer.dynamodb.repository.ts:168-192 | on a well-keyed store, update on the table agrees with the store's whole-record overwrite |
| `DynamoDbRepository.DeleteItemRefinesDelete` | src/infra/database/dynamodb/customer.dynamodb.repository.ts:194-204 | delete on the table agrees with the store's delete |
| `DynamoDbRepository.GetRefinesFindById` | src/infra/database/dynamodb/customer.dynamodb.repository.ts:38-58 | on a well-keyed store of valid customers, findById on the table returns exactly the stored customer |
| `DynamoDbRepository.DecodeItems` | src/infra/database/dynamodb/customer.dynamodb.repository.ts:150-153 | succeeds exactly when every item decodes, with the customers in order; a failure is a TypeError or validation exception |
| `DynamoDbRepository.FindAll` | src/infra/database/dynamodb/customer.dynamodb.repository.ts:60-166 | the defaults are page 1 and perPage 10, and the checks run in order: perPage > 20, page < 1, perPage < 1, blank keyword; each throws DatabaseException with its message, and these are the only DatabaseExceptions; a zero count gives the empty envelope with null next/prev/lastId; otherwise total is the count, next = page+1 exactly when a continuation key exists, lastId is that key, prev = page-1 only for page > 1, and the items are the page decoded in order; with accepted arguments and matches the search succeeds exactly when every scanned item decodes, and otherwise throws the first item's decoding exception |
| `DynamoDbRepository.TwentyOneRefused` | src/infra/database/dynamodb/customer.dynamodb.repository.ts:68-73 | perPage 21 is refused with "You are trying to get 21 items, but the maximum is 20" |
| `DynamoDbRepository.TotalIndependentOfPaging` | src/infra/database/dynamodb/customer.dynamodb.repository.ts:112-157 | total does not depend on page, perPage or cursor |
| `DynamoDbRepository.PageWithinLimit` | src/infra/database/dynamodb/customer.dynamodb.repository.ts:126-157 | when the scan honours its `Limit`, a page holds at most perPage customers |
| `DynamoDbRepository.FollowingNextIsAccepted` | src/infra/database/dynamodb/customer.dynamodb.repository.ts:155-163 | requesting `next` with the returned `lastId` passes every check; a non-empty `lastId` becomes the next scan's start key, so that request returns the page scanned from it; its prev points back |
| `Wrappers.MapResults` | src/infra/database/dynamodb/customer.dynamodb.repository.ts:150-153 | `Items.map` with a throwing callback: every value in order, or the failure of the first element that fails |
| `CreateCustomer.Execute` | src/usecase/customer/create/create-customer.usecase.ts:29-68 | an unknown customer type throws BadRequestUsecaseException with its message, with no call and no change; success holds exactly when the factory for the type accepts, and a factory's exception propagates unchanged; on success `create` is called once, the returned id is the stored customer's, and the record holds the submitted fields, with the customer and its document both stamped now; any failure leaves the store unchanged |
| `CreateCustomer.CreateThenFind` | src/usecase/customer/create/create-customer.usecase.ts:29-41 | a created customer is found by the returned id with the submitted name, email and raw document, stamped at creation |
| `FindByIdCustomer.Execute` | src/usecase/customer/find-by-id/find-by-id-customer.usecase.ts:27-55 | one findById call and no change; an absent id throws NotFoundUsecaseException naming the id; the output is the stored customer's id, name, email, raw document and timestamps |
| `UpdateCustomer.DocumentLabel` | src/usecase/customer/update/update-customer.usecase.ts:38-41 | "individual" maps to CPF and every other value to CNPJ, always a known type |
| `UpdateCustomer.Mutate` | src/usecase/customer/update/update-customer.usecase.ts:43-45 | the first mutator that throws decides the exception, in the order name, email, document; after all three succeed, the record has the new name, email and document, keeps id and createdAt, and is stamped now |
| `UpdateCustomer.MutateOnValid` | src/usecase/customer/update/update-customer.usecase.ts:43-45 | on a valid customer, the three mutators pass exactly when each new value is acceptable, and the result is valid |
| `UpdateCustomer.Execute` | src/usecase/customer/update/update-customer.usecase.ts:26-54 | findById comes first; an absent id throws NotFoundUsecaseException without update; for a found customer it succeeds exactly when the mutators do, and otherwise throws their exception; any failure leaves the store unchanged; on success `update` is called once with the new record, which keeps id and createdAt, and the found id is returned |
| `UpdateCustomer.UpdateOnValid` | src/usecase/customer/update/update-customer.usecase.ts:26-54 | on a valid stored customer, succeeds exactly when name, email and document are acceptable, and writes a valid record |
| `UpdateCustomer.NameCheckedFirst` | src/usecase/customer/update/update-customer.usecase.ts:43-44 | a bad name aborts with only the name rule reported, before the email is looked at |
| `UpdateCustomer.UnknownTypeUpdatesAsLegal` | src/usecase/customer/update/update-customer.usecase.ts:38-41 | any customer type other than "individual" behaves exactly as "legal" |
| `DeleteCustomer.Execute` | src/usecase/customer/delete/delete-customer.usecase.ts:16-27 | an absent id throws NotFoundUsecaseException without delete; otherwise delete is called once with the found customer's id |
| `DeleteCustomer.DeleteRemovesExactly` | src/usecase/customer/delete/delete-customer.usecase.ts:16-27 | on a well-keyed store only that record is removed; it is then not found, and deleting it again throws not-found |
| `SearchCustomer.Request` | src/usecase/customer/search/search-customer.usecase.ts:42-50 | page defaults to 1 and perPage to 10; lastId is passed on |
| `SearchCustomer.Execute` | src/usecase/customer/search/search-customer.usecase.ts:39-82 | one findAll call with the defaults filled in and no change; a repository failure propagates unchanged; on success page is the requested page, and total, perPage, next, prev and lastId are copied; the results are the items in order, each converted to a DTO with all six fields |
| `SearchCustomer.DefaultsAccepted` | src/usecase/customer/search/search-customer.usecase.ts:43-50 | over the DynamoDB repository, the defaults never trigger a DatabaseException for a non-blank keyword, and report page 1 of 10; when the scan honours its `Limit`, the page holds at most 10 customers |
| `SearchCustomer.TooLargePageRefused` | src/usecase/customer/search/search-customer.usecase.ts:44-50 | over the DynamoDB repository, perPage 21 ends in the repository's "maximum is 20" DatabaseException |
| `Text.TrimOfPadded` | src/domain/validators/document.value-object.validator.ts:39 | `trim` removes exactly the surrounding whitespace from whitespace-bounded content |
| `Text.DecimalRoundTrip` | src/infra/database/dynamodb/models/customer.dynamodb.model.ts:29-39 | the decimal text of a natural reads back as that natural |
| `Time.DateRoundTrip` | src/infra/database/dynamodb/models/customer.dynamodb.model.ts:67-77 | an encoded instant decodes to itself |
| `Time.EncodeDateInjective` | src/infra/database/dynamodb/models/customer.dynamodb.model.ts:29-39 | distinct instants are stored as distinct strings |

## Left out

- HTTP layer: routes, request DTOs, exception handlers, the Nest modules and the logger are framework plumbing with no domain behaviour.
- DynamoDB client and commands: the table is a map, and the two `findAll` scans are parameters. Keyword matching (`contains` over name, email and document fields) and DynamoDB's `Limit` semantics are not modelled.
- Storage failures: the client's own errors (network, throttling) are not modelled; only the exceptions the code itself throws are.
- Zod message aggregation: `ZodUtils.formatZodError` is not part of this model. A validation failure carries the set of rules broken. Message text is given only where the source writes it literally.
- Email and uuid syntax: the zod regexes are left abstract as the two recognisers in `CustomerValidator.Formats`.
- `Date` and `toISOString`: instants are integers and ISO text is replaced by signed decimal text. The real ISO format and its range limits are not modelled, and neither is `new Date(s)` on arbitrary text beyond digits, a leading minus, and the empty string.
- Clock and id generation: `new Date()` and `crypto.randomUUID` become `now` and `freshId` parameters. Each operation reads the clock once. The source reads it again in each factory and mutator, so its createdAt and updatedAt may differ by a few milliseconds, which the model does not represent.
- String length: JavaScript measures UTF-16 code units, and the model counts characters. Characters outside the Basic Multilingual Plane therefore count once here instead of twice.
- Fractional and non-numeric page arguments: page and perPage are integers in the model. The source's comparisons on `NaN` or fractions are not modelled.
- `ValueObject.hasChanged`: the value object's own `hasChanged` has no caller in the core (documents are immutable), so it is not modelled.
- DynamoDbRepository.FindAll: the envelope's `lastId` comes from `LastEvaluatedKey.id.S`. The model takes it as the optional id string the scan returns, so a continuation key without an `S` id is not modelled.
- A null or undefined document string: the field is a `string` in the model, so the zod issues "Expected string, received null" and "Required" for those inputs cannot arise.
- Test doubles: the Jest repository mock is replaced by the `Call` log each use case returns.

Behaviour of the code worth noting:

- `updateName` and `updateEmail` are not atomic. The new value is assigned before validation, so after a failure the in-memory customer keeps the rejected value, with its old updatedAt. The update use case never stores such a customer, because the exception aborts it before `update`.
- The customer schema checks only that a document is present (`z.object({})`). The document's own rules are enforced when the document is built.
- A search with no matches returns `prev` as null even for a page above 1. The non-empty case returns page − 1.
- The update use case never rejects a customer type: every value other than "individual" is treated as a CNPJ, while create rejects unknown types.

=== FILE: create_customer.dfy ===
/**
 * `CreateCustomerUsecase`: picks the factory from the customer type, stores
 * the new customer and returns its id.
 */
module CreateCustomer {
  import opened Wrappers
  import opened Errors
  import opened Text
  import opened DocumentTypes
  import opened CustomerValidator
  import opened CustomerEntity
  import opened Repository
  import opened Usecase
  import FindByIdCustomer

  const Name := "CreateCustomerUsecase"

  /** The `CustomerType` enum values as they arrive on the wire. */
  const Individual := "individual"
  const Legal := "legal"

  datatype CreateInput = CreateInput(name: string, email: string, document: string, customerType: string)

  function InvalidTypeMessage(customerType: string): string {
    "Customer type " + customerType + " is not valid while " + Name
  }

  /** The document type a customer type selects at creation. */
  function TypeOf(customerType: string): Option<DocumentType> {
    if customerType == Individual then Some(CPF)
    else if customerType == Legal then Some(CNPJ)
    else None
  }

  /**
   * `execute`, with the generated id `freshId` and the clock reading `now`
   * as parameters. A customer the factory rejects is never stored.
   */
  function Execute(store: Store, input: CreateInput, freshId: string, now: int, fmt: Formats): (run: Run<string>)
    ensures TypeOf(input.customerType).None? ==>
              run == Run([], store, Failure(BadRequestUsecase(InvalidTypeMessage(input.customerType), Name)))
    ensures run.result.Success? <==>
              && TypeOf(input.customerType).Some?
              && |Trim(input.document)| == RequiredLength(TypeOf(input.customerType).value)
              && fmt.isUuid(freshId) && 1 <= |input.name| <= MaxNameLength && fmt.isEmail(input.email)
    ensures run.result.Failure? ==> run.calls == [] && run.store == store
    // a known type's factory that throws: its exception propagates unchanged
    ensures input.customerType == Individual ==>
              var made := CreateIndividualCustomer(CreateCustomerInput(input.name, input.email, input.document), freshId, now, fmt);
              made.Failure? ==> run.result == Failure(made.error)
    ensures input.customerType == Legal ==>
              var made := CreateLegalCustomer(CreateCustomerInput(input.name, input.email, input.document), freshId, now, fmt);
              made.Failure? ==> run.result == Failure(made.error)
    ensures run.result.Success? ==>
              && run.result.value == freshId
              && run.store.Keys == store.Keys + {freshId}
              && (forall id | id in store && id != freshId :: run.store[id] == store[id])
              && run.calls == [CreateCall(run.store[freshId])]
    ensures run.result.Success? ==>
              var c := run.store[freshId];
              && c.Id() == freshId && c.name == input.name && c.email == input.email
              && c.document.document == input.document && c.document.docType == TypeOf(input.customerType).value
              && c.CreatedAt() == now && c.UpdatedAt() == now
              && c.document.CreatedAt() == now && c.document.UpdatedAt() == now
              && Valid(c, fmt)
  {
    var fields := CreateCustomerInput(input.name, input.email, input.document);
    var created: Result<Result<Customer, Error>, Error> :=
      if input.customerType == Individual then Success(CreateIndividualCustomer(fields, freshId, now, fmt))
      else if input.customerType == Legal then Success(CreateLegalCustomer(fields, freshId, now, fmt))
      else Failure(BadRequestUsecase(InvalidTypeMessage(input.customerType), Name));
    match created
    case Failure(e) => Run([], store, Failure(e))
    case Success(Failure(e)) => Run([], store, Failure(e))
    case Success(Success(c)) => Run([CreateCall(c)], Repository.Create(store, c), Success(c.Id()))
  }

  /**
   * A created customer is found by the returned id, and the DTO shows
   * exactly what was submitted, stamped at the creation time.
   */
  lemma CreateThenFind(store: Store, input: CreateInput, freshId: string, now: int, fmt: Formats)
    requires Execute(store, input, freshId, now, fmt).result.Success?
    ensures var created := Execute(store, input, freshId, now, fmt);
            FindByIdCustomer.Execute(created.store, created.result.value).result
              == Success(CustomerDto(freshId, input.name, input.email, input.document, now, now))
  {
  }
}

=== FILE: customer.dfy ===
/**
 * The Customer aggregate. Construction paths build the candidate object and
 * validate it; the mutators follow the source's order exactly: assign the
 * field, validate, then record the change. A failed validation therefore
 * leaves the newly assigned name or email in place with the old
 * `updatedAt`; nothing is rolled back.
 */
module CustomerEntity {
  import opened Wrappers
  import opened Text
  import opened Time
  import opened Errors
  import opened DocumentTypes
  import opened EntityBase
  import opened DocumentValueObject
  import opened CustomerValidator

  datatype Customer = Customer(base: Entity, name: string, email: string, document: Document) {

    function Id(): string {
      base.id
    }

    function CreatedAt(): int {
      base.createdAt
    }

    function UpdatedAt(): int {
      base.updatedAt
    }
  }

  /** The fields the validator sees for an existing customer. */
  function FieldsOf(c: Customer): CustomerFields {
    CustomerFields(c.Id(), c.name, c.email, Some(c.document), Date(c.CreatedAt()), Date(c.UpdatedAt()))
  }

  /** The invariant every customer built by this module satisfies. */
  predicate Valid(c: Customer, fmt: Formats) {
    CustomerValidator.WellFormed(FieldsOf(c), fmt) && DocumentValueObject.Valid(c.document)
  }

  /** Input of both factories. */
  datatype CreateCustomerInput = CreateCustomerInput(name: string, email: string, document: string)

  /** The state of the object after a mutator, and the exception it threw, if any. */
  datatype Mutated = Mutated(after: Customer, thrown: Option<Error>)

  /** `Customer.with`, the private constructor behind every path. */
  function With(input: CustomerFields, fmt: Formats): (r: Result<Customer, Error>)
    ensures r.Success? <==> CustomerValidator.WellFormed(input, fmt)
    ensures r.Success? ==> FieldsOf(r.value) == input
    ensures r.Success? && DocumentValueObject.Valid(input.document.value) ==> Valid(r.value, fmt)
    ensures r.Failure? ==> r.error == ValidationDomain(CustomerValidator.Issues(input, fmt), CustomerValidator.Context)
  {
    match CustomerValidator.Validate(input, fmt)
    case Fail(e) => Failure(e)
    case Pass =>
      Success(Customer(Entity(input.id, input.createdAt.millis, input.updatedAt.millis),
                       input.name, input.email, input.document.value))
  }

  /** Builds a fresh customer around an already created document. */
  function Stamp(input: CreateCustomerInput, document: Document, freshId: string, now: int, fmt: Formats)
    : (r: Result<Customer, Error>)
    ensures r.Failure? ==>
              r.error == ValidationDomain(FieldIssues(freshId, input.name, input.email, fmt), CustomerValidator.Context)
  {
    var fields := CustomerFields(freshId, input.name, input.email, Some(document), Date(now), Date(now));
    StampedIssues(fields, fmt);
    With(fields, fmt)
  }

  /** `createLegalCustomer`: a new customer, id `freshId`, with a CNPJ document, stamped at `now`. */
  function CreateLegalCustomer(input: CreateCustomerInput, freshId: string, now: int, fmt: Formats): (r: Result<Customer, Error>)
    ensures r.Success? <==>
              && |Trim(input.document)| == 14
              && fmt.isUuid(freshId) && 1 <= |input.name| <= MaxNameLength && fmt.isEmail(input.email)
    ensures r.Success? ==>
              && r.value.Id() == freshId && r.value.name == input.name && r.value.email == input.email
              && r.value.document.docType == CNPJ && r.value.document.document == input.document
              && r.value.document.CreatedAt() == now && r.value.document.UpdatedAt() == now
              && r.value.CreatedAt() == now && r.value.UpdatedAt() == now
              && Valid(r.value, fmt)
    ensures |Trim(input.document)| != 14 ==>
              r.Failure? && r.error.ValidationDomain? && r.error.context == DocumentValidator.Context
    // an accepted document: the customer schema reports the id, name and email rules broken
    ensures |Trim(input.document)| == 14 && r.Failure? ==>
              r.error == ValidationDomain(FieldIssues(freshId, input.name, input.email, fmt), CustomerValidator.Context)
  {
    var document :- CreateLegalDocument(input.document, now);
    Stamp(input, document, freshId, now, fmt)
  }

  /** `createIndividualCustomer`: a new customer, id `freshId`, with a CPF document, stamped at `now`. */
  function CreateIndividualCustomer(input: CreateCustomerInput, freshId: string, now: int, fmt: Formats): (r: Result<Customer, Error>)
    ensures r.Success? <==>
              && |Trim(input.document)| == 11
              && fmt.isUuid(freshId) && 1 <= |input.name| <= MaxNameLength && fmt.isEmail(input.email)
    ensures r.Success? ==>
              && r.value.Id() == freshId && r.value.name == input.name && r.value.email == input.email
              && r.value.document.docType == CPF && r.value.document.document == input.document
              && r.value.document.CreatedAt() == now && r.value.document.UpdatedAt() == now
              && r.value.CreatedAt() == now && r.value.UpdatedAt() == now
              && Valid(r.value, fmt)
    ensures |Trim(input.document)| != 11 ==>
              r.Failure? && r.error.ValidationDomain? && r.error.context == DocumentValidator.Context
    // an accepted document: the customer schema reports the id, name and email rules broken
    ensures |Trim(input.document)| == 11 && r.Failure? ==>
              r.error == ValidationDomain(FieldIssues(freshId, input.name, input.email, fmt), CustomerValidator.Context)
  {
    var document :- CreateIndividualDocument(input.document, now);
    Stamp(input, document, freshId, now, fmt)
  }

  /** Validates the object as it now stands and, if that passes, records the change at `now`. */
  function Commit(candidate: Customer, now: int, fmt: Formats): Mutated {
    match CustomerValidator.Validate(FieldsOf(candidate), fmt)
    case Fail(e) => Mutated(candidate, Some(e))
    case Pass => Mutated(candidate.(base := candidate.base.HasChanged(now)), None)
  }

  /** `updateName`. */
  function UpdateName(c: Customer, name: string, now: int, fmt: Formats): (m: Mutated)
    ensures m.after.name == name
    ensures m.after.Id() == c.Id() && m.after.CreatedAt() == c.CreatedAt()
    ensures m.after.email == c.email && m.after.document == c.document
    ensures m.thrown.None? <==> CustomerValidator.WellFormed(FieldsOf(c.(name := name)), fmt)
    ensures m.thrown.None? ==> m.after.UpdatedAt() == now
    ensures m.thrown.Some? ==>
              m.after.UpdatedAt() == c.UpdatedAt()
              && m.thrown.value.ValidationDomain? && m.thrown.value.context == CustomerValidator.Context
  {
    Commit(c.(name := name), now, fmt)
  }

  /** `updateEmail`. */
  function UpdateEmail(c: Customer, email: string, now: int, fmt: Formats): (m: Mutated)
    ensures m.after.email == email
    ensures m.after.Id() == c.Id() && m.after.CreatedAt() == c.CreatedAt()
    ensures m.after.name == c.name && m.after.document == c.document
    ensures m.thrown.None? <==> CustomerValidator.WellFormed(FieldsOf(c.(email := email)), fmt)
    ensures m.thrown.None? ==> m.after.UpdatedAt() == now
    ensures m.thrown.Some? ==>
              m.after.UpdatedAt() == c.UpdatedAt()
              && m.thrown.value.ValidationDomain? && m.thrown.value.context == CustomerValidator.Context
  {
    Commit(c.(email := email), now, fmt)
  }

  function InvalidTypeMessage(typeLabel: string, name: string): string {
    "Invalid document type " + typeLabel + " while updating document for customer " + name
  }

  /**
   * `updateDocument`: the new document is built by the factory matching the
   * type label before it is assigned, so a rejected document or an unknown
   * label leaves the customer exactly as it was. Once built, the document is
   * assigned before the customer is validated, so it stays in place even when
   * that validation throws (an in-memory customer made invalid earlier).
   */
  function UpdateDocument(c: Customer, document: string, typeLabel: string, now: int, fmt: Formats): (m: Mutated)
    ensures m.after.Id() == c.Id() && m.after.CreatedAt() == c.CreatedAt()
    ensures m.after.name == c.name && m.after.email == c.email
    ensures typeLabel != "CPF" && typeLabel != "CNPJ" ==>
              m == Mutated(c, Some(Domain(InvalidTypeMessage(typeLabel, c.name), "Customer")))
    ensures typeLabel == "CNPJ" && |Trim(document)| != 14 ==> m.after == c && m.thrown.Some?
    ensures typeLabel == "CPF" && |Trim(document)| != 11 ==> m.after == c && m.thrown.Some?
    // a rejected document: the document factory's exception
    ensures ParseLabel(typeLabel).Some? && |Trim(document)| != RequiredLength(ParseLabel(typeLabel).value) ==>
              m.thrown.value.ValidationDomain? && m.thrown.value.context == DocumentValidator.Context
    // an accepted document the customer schema then rejects: the customer validator's exception
    ensures ParseLabel(typeLabel).Some? && |Trim(document)| == RequiredLength(ParseLabel(typeLabel).value)
            && m.thrown.Some? ==>
              m.thrown.value
                == ValidationDomain(CustomerValidator.Issues(FieldsOf(c.(document := m.after.document)), fmt),
                                    CustomerValidator.Context)
    ensures m.thrown.None? ==>
              && m.after.UpdatedAt() == now
              && m.after.document.document == document && Label(m.after.document.docType) == typeLabel
              && m.after.document.CreatedAt() == now && DocumentValueObject.Valid(m.after.document)
    ensures m.thrown.Some? ==> m.after.UpdatedAt() == c.UpdatedAt()
    // an accepted document is assigned whether or not the customer then validates
    ensures ParseLabel(typeLabel).Some? && |Trim(document)| == RequiredLength(ParseLabel(typeLabel).value) ==>
              && m.after.document.document == document && Label(m.after.document.docType) == typeLabel
              && m.after.document.CreatedAt() == now && m.after.document.UpdatedAt() == now
              && (m.thrown.Some? <==> !CustomerValidator.WellFormed(FieldsOf(c.(document := m.after.document)), fmt))
    ensures m.thrown.None? ==> m.after.document.UpdatedAt() == now
  {
    var created: Option<Result<Document, Error>> :=
      if typeLabel == "CNPJ" then Some(CreateLegalDocument(document, now))
      else if typeLabel == "CPF" then Some(CreateIndividualDocument(document, now))
      else None;
    match created
    case None => Mutated(c, Some(Domain(InvalidTypeMessage(typeLabel, c.name), "Customer")))
    case Some(Failure(e)) => Mutated(c, Some(e))
    case Some(Success(d)) => Commit(c.(document := d), now, fmt)
  }

  /** Identity comparison of customers (the Entity base's `equals`). */
  predicate SameCustomer(c: Customer, other: Option<Customer>) {
    c.base.Equals(if other.Some? then Some(other.value.base) else None)
  }

  /** Rebuilding a valid customer from its own fields gives it back unchanged. */
  lemma WithOfOwnFields(c: Customer, fmt: Formats)
    requires Valid(c, fmt)
    ensures With(FieldsOf(c), fmt) == Success(c)
  {
  }

  /**
   * On a valid customer, `updateName` succeeds exactly for names of 1 to 255
   * characters; with a clock that does not run back the result stays valid
   * and is the same customer. On failure the new name stays assigned.
   */
  lemma UpdateNameOnValid(c: Customer, name: string, now: int, fmt: Formats)
    requires Valid(c, fmt)
    ensures UpdateName(c, name, now, fmt).thrown.None? <==> 1 <= |name| <= MaxNameLength
    ensures now >= c.UpdatedAt() && UpdateName(c, name, now, fmt).thrown.None? ==>
              Valid(UpdateName(c, name, now, fmt).after, fmt)
    ensures SameCustomer(c, Some(UpdateName(c, name, now, fmt).after))
    ensures UpdateName(c, name, now, fmt).thrown.Some? ==>
              UpdateName(c, name, now, fmt).after == c.(name := name)
  {
  }

  /** On a valid customer, `updateEmail` succeeds exactly for addresses the email recogniser accepts. */
  lemma UpdateEmailOnValid(c: Customer, email: string, now: int, fmt: Formats)
    requires Valid(c, fmt)
    ensures UpdateEmail(c, email, now, fmt).thrown.None? <==> fmt.isEmail(email)
    ensures now >= c.UpdatedAt() && UpdateEmail(c, email, now, fmt).thrown.None? ==>
              Valid(UpdateEmail(c, email, now, fmt).after, fmt)
    ensures UpdateEmail(c, email, now, fmt).thrown.Some? ==>
              UpdateEmail(c, email, now, fmt).after == c.(email := email)
  {
  }

  /**
   * On a valid customer, `updateDocument` succeeds exactly when the label is
   * a document type and the trimmed document has that type's length; the
   * customer-level validation after the assignment cannot fail.
   */
  lemma UpdateDocumentOnValid(c: Customer, document: string, typeLabel: string, now: int, fmt: Formats)
    requires Valid(c, fmt)
    ensures var m := UpdateDocument(c, document, typeLabel, now, fmt);
            m.thrown.None? <==>
              ParseLabel(typeLabel).Some? && |Trim(document)| == RequiredLength(ParseLabel(typeLabel).value)
    ensures var m := UpdateDocument(c, document, typeLabel, now, fmt);
            now >= c.UpdatedAt() && m.thrown.None? ==> Valid(m.after, fmt)
  {
  }
}

=== FILE: customer_validator.dfy ===
/**
 * The schema of CustomerEntityZodValidator. A null or undefined document
 * and an invalid date abort the object, so the ordering refinement then
 * does not run. The document rule only checks that a document object is
 * present; the document's own invariants come from its constructor.
 */
module CustomerValidator {
  import opened Wrappers
  import opened Time
  import opened Errors
  import opened DocumentValueObject

  const Context := "CustomerEntityZodValidator"
  const MaxNameLength := 255

  /** The uuid and email recognisers of the schema library, left abstract. */
  datatype Formats = Formats(isUuid: string -> bool, isEmail: string -> bool)

  /** The fields of a Customer as the validator sees them. */
  datatype CustomerFields = CustomerFields(
    id: string, name: string, email: string, document: Option<Document>,
    createdAt: Date, updatedAt: Date)

  predicate Aborted(f: CustomerFields) {
    f.document.None? || f.createdAt.InvalidDate? || f.updatedAt.InvalidDate?
  }

  /** The rules of the schema, each saying when `f` breaks it. */
  predicate Breaks(f: CustomerFields, fmt: Formats, i: Issue) {
    match i
    case IdNotUuid => !fmt.isUuid(f.id)
    case NameTooShort => |f.name| < 1
    case NameTooLong => |f.name| > MaxNameLength
    case EmailInvalid => !fmt.isEmail(f.email)
    case DocumentMissing => f.document.None?
    case CreatedAtNotDate => f.createdAt.InvalidDate?
    case UpdatedAtNotDate => f.updatedAt.InvalidDate?
    case CreatedAfterUpdated => !Aborted(f) && f.createdAt.millis > f.updatedAt.millis
    case _ => false
  }

  const CustomerRules: set<Issue> :=
    {IdNotUuid, NameTooShort, NameTooLong, EmailInvalid, DocumentMissing,
     CreatedAtNotDate, UpdatedAtNotDate, CreatedAfterUpdated}

  /** Every rule of the schema that `f` breaks. */
  function Issues(f: CustomerFields, fmt: Formats): (r: set<Issue>)
    ensures IdNotUuid in r <==> !fmt.isUuid(f.id)
    ensures NameTooShort in r <==> f.name == ""
    ensures NameTooLong in r <==> |f.name| > MaxNameLength
    ensures EmailInvalid in r <==> !fmt.isEmail(f.email)
    ensures DocumentMissing in r <==> f.document.None?
    ensures CreatedAtNotDate in r <==> f.createdAt.InvalidDate?
    ensures UpdatedAtNotDate in r <==> f.updatedAt.InvalidDate?
    ensures CreatedAfterUpdated in r <==> !Aborted(f) && f.createdAt.millis > f.updatedAt.millis
    ensures r <= CustomerRules
  {
    set i | i in CustomerRules && Breaks(f, fmt, i)
  }

  /** A well-formed customer, stated independently of the rule table. */
  predicate WellFormed(f: CustomerFields, fmt: Formats) {
    && fmt.isUuid(f.id)
    && 1 <= |f.name| <= MaxNameLength
    && fmt.isEmail(f.email)
    && f.document.Some?
    && f.createdAt.Date? && f.updatedAt.Date?
    && f.createdAt.millis <= f.updatedAt.millis
  }

  /** The schema accepts exactly the well-formed customers. */
  lemma IssuesEmptyIffWellFormed(f: CustomerFields, fmt: Formats)
    ensures Issues(f, fmt) == {} <==> WellFormed(f, fmt)
  {
    if !WellFormed(f, fmt) {
      if !fmt.isUuid(f.id) {
        assert IdNotUuid in Issues(f, fmt);
      } else if |f.name| < 1 {
        assert NameTooShort in Issues(f, fmt);
      } else if |f.name| > MaxNameLength {
        assert NameTooLong in Issues(f, fmt);
      } else if !fmt.isEmail(f.email) {
        assert EmailInvalid in Issues(f, fmt);
      } else if f.document.None? {
        assert DocumentMissing in Issues(f, fmt);
      } else if f.createdAt.InvalidDate? {
        assert CreatedAtNotDate in Issues(f, fmt);
      } else if f.updatedAt.InvalidDate? {
        assert UpdatedAtNotDate in Issues(f, fmt);
      } else {
        assert CreatedAfterUpdated in Issues(f, fmt);
      }
    }
  }

  /** `validate`: passes silently, or throws ValidationDomainException listing every broken rule. */
  function Validate(f: CustomerFields, fmt: Formats): (r: Outcome<Error>)
    ensures r.Pass? <==> WellFormed(f, fmt)
    ensures r.Fail? ==> r.error == ValidationDomain(Issues(f, fmt), Context) && r.error.issues != {}
  {
    IssuesEmptyIffWellFormed(f, fmt);
    if Issues(f, fmt) == {} then Pass else Fail(ValidationDomain(Issues(f, fmt), Context))
  }

  /**
   * Out-of-order timestamps are rejected whatever the other fields hold, as
   * long as the document is present and both dates are valid.
   */
  lemma OrderRejectedRegardless(f: CustomerFields, fmt: Formats)
    requires f.document.Some? && f.createdAt.Date? && f.updatedAt.Date?
    requires f.createdAt.millis > f.updatedAt.millis
    ensures Validate(f, fmt).Fail? && CreatedAfterUpdated in Validate(f, fmt).error.issues
  {
  }

  /** The rules on id, name and email a customer with these values breaks. */
  function FieldIssues(id: string, name: string, email: string, fmt: Formats): set<Issue> {
    (if fmt.isUuid(id) then {} else {IdNotUuid})
    + (if name == "" then {NameTooShort} else {})
    + (if |name| > MaxNameLength then {NameTooLong} else {})
    + (if fmt.isEmail(email) then {} else {EmailInvalid})
  }

  /**
   * A customer with a document and one valid instant for both stamps (what
   * the factories build) can only break the id, name and email rules.
   */
  lemma StampedIssues(f: CustomerFields, fmt: Formats)
    requires f.document.Some? && f.createdAt.Date? && f.createdAt == f.updatedAt
    ensures Issues(f, fmt) == FieldIssues(f.id, f.name, f.email, fmt)
  {
    var expected := FieldIssues(f.id, f.name, f.email, fmt);
    forall i | i in Issues(f, fmt)
      ensures i in expected
    {
    }
  }

  /** When every other field is well formed, the name's own rule is the only one reported. */
  lemma OnlyNameIssues(f: CustomerFields, fmt: Formats)
    requires WellFormed(f.(name := "n"), fmt)
    ensures Issues(f, fmt) ==
              if |f.name| == 0 then {NameTooShort} else if |f.name| > MaxNameLength then {NameTooLong} else {}
  {
    var expected: set<Issue> :=
      if |f.name| == 0 then {NameTooShort} else if |f.name| > MaxNameLength then {NameTooLong} else {};
    forall i | i in Issues(f, fmt)
      ensures i in expected
    {
    }
  }
}

=== FILE: delete_customer.dfy ===
/** `DeleteCustomerUsecase`: finds the customer, then deletes it by the id it carries. */
module DeleteCustomer {
  import opened Wrappers
  import opened Errors
  import opened CustomerEntity
  import opened Repository
  import opened Usecase
  import FindByIdCustomer

  const Name := "DeleteCustomerUsecase"

  /** `execute`: returns nothing on success. */
  function Execute(store: Store, id: string): (run: Run<()>)
    ensures id !in store ==>
              run == Run([FindByIdCall(id)], store, Failure(NotFoundUsecase(NotFoundMessage(id, Name), Name)))
    ensures id in store ==>
              && run.calls == [FindByIdCall(id), DeleteCall(store[id].Id())]
              && run.store == Repository.Delete(store, store[id].Id())
              && run.result == Success(())
  {
    match Repository.FindById(store, id)
    case None => Run([FindByIdCall(id)], store, Failure(NotFoundUsecase(NotFoundMessage(id, Name), Name)))
    case Some(c) => Run([FindByIdCall(id), DeleteCall(c.Id())], Repository.Delete(store, c.Id()), Success(()))
  }

  /**
   * On a well-keyed store a deletion removes exactly the requested record:
   * afterwards it is not found, every other record is untouched, and a
   * second deletion of the same id fails with not-found.
   */
  lemma DeleteRemovesExactly(store: Store, id: string)
    requires WellKeyed(store) && id in store
    ensures var run := Execute(store, id);
            && run.store.Keys == store.Keys - {id}
            && (forall k | k in run.store :: run.store[k] == store[k])
            && FindByIdCustomer.Execute(run.store, id).result.Failure?
            && Execute(run.store, id).result == Failure(NotFoundUsecase(NotFoundMessage(id, Name), Name))
  {
    assert store[id].Id() == id;
  }
}

=== FILE: document.dfy ===
/**
 * The Document value object: a raw tax identifier tagged CPF or CNPJ.
 * Every construction path runs the validator, so a Document value only
 * comes out of a successful validation. The stored string is the raw
 * input; only validation looks at its trimmed form.
 */
module DocumentValueObject {
  import opened Wrappers
  import opened Text
  import opened Time
  import opened Errors
  import opened DocumentTypes
  import opened ValueObjectBase
  import DocumentValidator

  datatype Document = Document(document: string, docType: DocumentType, base: ValueObject) {

    function CreatedAt(): int {
      base.createdAt
    }

    function UpdatedAt(): int {
      base.updatedAt
    }
  }

  /** The fields the validator sees for an existing document. */
  function FieldsOf(d: Document): DocumentValidator.DocumentFields {
    DocumentValidator.DocumentFields(d.document, Label(d.docType), Date(d.CreatedAt()), Date(d.UpdatedAt()))
  }

  /** The invariant every Document satisfies. */
  predicate Valid(d: Document) {
    DocumentValidator.WellFormed(FieldsOf(d))
  }

  /**
   * `Document.with`, the private constructor behind every path: builds the
   * document from raw fields and validates it. The type may be any string at
   * run time (rehydration casts it), so it arrives as a label.
   */
  function With(input: DocumentValidator.DocumentFields): (r: Result<Document, Error>)
    ensures r.Success? <==> DocumentValidator.WellFormed(input)
    ensures r.Success? ==>
              && r.value.document == input.document
              && Label(r.value.docType) == input.typeLabel
              && Date(r.value.CreatedAt()) == input.createdAt
              && Date(r.value.UpdatedAt()) == input.updatedAt
              && Valid(r.value)
    ensures r.Failure? ==> r.error == ValidationDomain(DocumentValidator.Issues(input), DocumentValidator.Context)
  {
    match DocumentValidator.Validate(input)
    case Fail(e) => Failure(e)
    case Pass =>
      Success(Document(input.document, ParseLabel(input.typeLabel).value,
                       ValueObject(input.createdAt.millis, input.updatedAt.millis)))
  }

  /** `createLegalDocument`: a CNPJ document stamped at `now`. */
  function CreateLegalDocument(document: string, now: int): (r: Result<Document, Error>)
    ensures r.Success? <==> |Trim(document)| == 14
    ensures r.Success? ==>
              && r.value.docType == CNPJ && r.value.document == document
              && r.value.CreatedAt() == now && r.value.UpdatedAt() == now
              && Valid(r.value)
    ensures r.Failure? ==> r.error.ValidationDomain? && r.error.context == DocumentValidator.Context
  {
    With(DocumentValidator.DocumentFields(document, Label(CNPJ), Date(now), Date(now)))
  }

  /** `createIndividualDocument`: a CPF document stamped at `now`. */
  function CreateIndividualDocument(document: string, now: int): (r: Result<Document, Error>)
    ensures r.Success? <==> |Trim(document)| == 11
    ensures r.Success? ==>
              && r.value.docType == CPF && r.value.document == document
              && r.value.CreatedAt() == now && r.value.UpdatedAt() == now
              && Valid(r.value)
    ensures r.Failure? ==> r.error.ValidationDomain? && r.error.context == DocumentValidator.Context
  {
    With(DocumentValidator.DocumentFields(document, Label(CPF), Date(now), Date(now)))
  }

  /** Rebuilding a valid document from its own fields gives it back unchanged. */
  lemma WithOfOwnFields(d: Document)
    requires Valid(d)
    ensures With(FieldsOf(d)) == Success(d)
  {
  }

  /**
   * A valid document has 11 or 14 characters once trimmed; its raw string
   * is never shorter, and is exactly that long when it has no whitespace.
   */
  lemma ValidLength(d: Document)
    requires Valid(d)
    ensures |Trim(d.document)| == RequiredLength(d.docType)
    ensures |Trim(d.document)| == 11 || |Trim(d.document)| == 14
    ensures |d.document| >= |Trim(d.document)|
    ensures NoWhitespace(d.document) ==> |d.document| == RequiredLength(d.docType)
  {
    if NoWhitespace(d.document) {
      TrimOfUnpadded(d.document);
    }
  }

  /**
   * Validation trims but storage does not: an 11-digit CPF padded with a
   * blank on each side (" 12345678901 ") is accepted and kept with all 13
   * characters.
   */
  lemma PaddedDocumentKeptRaw(core: string, pad: char, now: int)
    requires |core| == 11 && NoWhitespace(core) && IsWhitespace(pad)
    ensures var r := CreateIndividualDocument([pad] + core + [pad], now);
            r.Success? && r.value.document == [pad] + core + [pad] && |r.value.document| == 13
  {
    TrimOfPadded([pad], core, [pad]);
  }

  /** Factories on whitespace-free input accept exactly the required raw length. */
  lemma FactoriesOnPlainDigits(document: string, now: int)
    requires NoWhitespace(document)
    ensures CreateIndividualDocument(document, now).Success? <==> |document| == 11
    ensures CreateLegalDocument(document, now).Success? <==> |document| == 14
  {
    TrimOfUnpadded(document);
  }
}

=== FILE: document_type.dfy ===
/** The two kinds of Brazilian tax identifier and their enum labels. */
module DocumentTypes {
  import opened Wrappers

  /** CPF identifies an individual, CNPJ a legal entity. */
  datatype DocumentType = CPF | CNPJ

  /** The enum's string value. */
  function Label(t: DocumentType): string {
    match t
    case CPF => "CPF"
    case CNPJ => "CNPJ"
  }

  /** The enum member a string denotes, if any (zod's `z.enum(['CPF', 'CNPJ'])`). */
  function ParseLabel(s: string): (r: Option<DocumentType>)
    ensures r.Some? ==> Label(r.value) == s
    ensures forall t :: Label(t) == s ==> r == Some(t)
  {
    if s == "CPF" then Some(CPF) else if s == "CNPJ" then Some(CNPJ) else None
  }

  /** The exact number of characters a document of each type has. */
  function RequiredLength(t: DocumentType): nat {
    match t
    case CPF => 11
    case CNPJ => 14
  }
}

=== FILE: document_validator.dfy ===
/**
 * The schema of DocumentValueObjectZodValidator. Field rules contribute
 * issues independently; an invalid enum or date aborts the object, in which
 * case the two cross-field refinements are not evaluated. The refinements
 * see the parsed object, whose `document` is already trimmed.
 */
module DocumentValidator {
  import opened Wrappers
  import opened Text
  import opened Time
  import opened Errors
  import opened DocumentTypes

  const Context := "DocumentValueObjectZodValidator"
  const MinLength := 11
  const MaxLength := 14

  /** The fields of a Document as the validator sees them. */
  datatype DocumentFields = DocumentFields(document: string, typeLabel: string, createdAt: Date, updatedAt: Date)

  /** A field rule failed in a way that stops zod before the refinements. */
  predicate Aborted(f: DocumentFields) {
    ParseLabel(f.typeLabel).None? || f.createdAt.InvalidDate? || f.updatedAt.InvalidDate?
  }

  /** The rules of the schema, each saying when `f` breaks it. */
  predicate Breaks(f: DocumentFields, i: Issue) {
    match i
    case DocumentTooShort => |Trim(f.document)| < MinLength
    case DocumentTooLong => |Trim(f.document)| > MaxLength
    case DocumentTypeNotEnum => ParseLabel(f.typeLabel).None?
    case DocumentCreatedAtNotDate => f.createdAt.InvalidDate?
    case DocumentUpdatedAtNotDate => f.updatedAt.InvalidDate?
    // the refinements run only on an object that parsed without aborting
    case DocumentCreatedAfterUpdated =>
      !Aborted(f) && f.createdAt.millis > f.updatedAt.millis
    case DocumentLengthMismatchesType =>
      !Aborted(f) && |Trim(f.document)| != RequiredLength(ParseLabel(f.typeLabel).value)
    case _ => false
  }

  const DocumentRules: set<Issue> :=
    {DocumentTooShort, DocumentTooLong, DocumentTypeNotEnum, DocumentCreatedAtNotDate,
     DocumentUpdatedAtNotDate, DocumentCreatedAfterUpdated, DocumentLengthMismatchesType}

  /** Every rule of the schema that `f` breaks. */
  function Issues(f: DocumentFields): (r: set<Issue>)
    ensures DocumentTooShort in r <==> |Trim(f.document)| < MinLength
    ensures DocumentTooLong in r <==> |Trim(f.document)| > MaxLength
    ensures DocumentTypeNotEnum in r <==> ParseLabel(f.typeLabel).None?
    ensures DocumentCreatedAtNotDate in r <==> f.createdAt.InvalidDate?
    ensures DocumentUpdatedAtNotDate in r <==> f.updatedAt.InvalidDate?
    ensures DocumentCreatedAfterUpdated in r <==>
              !Aborted(f) && f.createdAt.millis > f.updatedAt.millis
    ensures DocumentLengthMismatchesType in r <==>
              !Aborted(f) && |Trim(f.document)| != RequiredLength(ParseLabel(f.typeLabel).value)
    ensures r <= DocumentRules
  {
    set i | i in DocumentRules && Breaks(f, i)
  }

  /**
   * What a well-formed document is, stated independently of the rule
   * table: a known type, valid dates in order, and a trimmed length equal
   * to the type's required length.
   */
  predicate WellFormed(f: DocumentFields) {
    && ParseLabel(f.typeLabel).Some?
    && f.createdAt.Date? && f.updatedAt.Date?
    && f.createdAt.millis <= f.updatedAt.millis
    && |Trim(f.document)| == RequiredLength(ParseLabel(f.typeLabel).value)
  }

  /** The schema accepts exactly the well-formed documents. */
  lemma IssuesEmptyIffWellFormed(f: DocumentFields)
    ensures Issues(f) == {} <==> WellFormed(f)
  {
    if !WellFormed(f) {
      if ParseLabel(f.typeLabel).None? {
        assert DocumentTypeNotEnum in Issues(f);
      } else if f.createdAt.InvalidDate? {
        assert DocumentCreatedAtNotDate in Issues(f);
      } else if f.updatedAt.InvalidDate? {
        assert DocumentUpdatedAtNotDate in Issues(f);
      } else if f.createdAt.millis > f.updatedAt.millis {
        assert DocumentCreatedAfterUpdated in Issues(f);
      } else {
        assert DocumentLengthMismatchesType in Issues(f);
      }
    }
  }

  /** `validate`: passes silently, or throws ValidationDomainException listing every broken rule. */
  function Validate(f: DocumentFields): (r: Outcome<Error>)
    ensures r.Pass? <==> WellFormed(f)
    ensures r.Fail? ==> r.error == ValidationDomain(Issues(f), Context) && r.error.issues != {}
  {
    IssuesEmptyIffWellFormed(f);
    if Issues(f) == {} then Pass else Fail(ValidationDomain(Issues(f), Context))
  }

  /**
   * The message the schema attaches to each of its custom rules. The model's
   * exception carries the set of broken rules; this maps each to its text.
   */
  function Message(i: Issue): string {
    match i
    case DocumentTooShort => "Document must have at least 11 characters."
    case DocumentTooLong => "Document must have at most 14 characters."
    case DocumentTypeNotEnum => "Type must be either CPF or CNPJ."
    case DocumentCreatedAfterUpdated => "createdAt must be less than or equal to updatedAt."
    case DocumentLengthMismatchesType => "document.document must have 11 characters for CPF and 14 characters for CNPJ."
    case _ => "Invalid date"
  }

  /**
   * Each custom rule, broken on its own, makes validation fail with that rule
   * reported. The length-bound rules fire whatever the type; the refinements
   * only when nothing aborted.
   */
  lemma RulesReported(f: DocumentFields)
    ensures |Trim(f.document)| < MinLength ==>
              Validate(f).Fail? && DocumentTooShort in Validate(f).error.issues
    ensures |Trim(f.document)| > MaxLength ==>
              Validate(f).Fail? && DocumentTooLong in Validate(f).error.issues
    ensures f.typeLabel != "CPF" && f.typeLabel != "CNPJ" ==>
              Validate(f).Fail? && DocumentTypeNotEnum in Validate(f).error.issues
    ensures !Aborted(f) && f.createdAt.millis > f.updatedAt.millis ==>
              Validate(f).Fail? && DocumentCreatedAfterUpdated in Validate(f).error.issues
    ensures f.typeLabel == "CPF" && !Aborted(f) && |Trim(f.document)| != 11 ==>
              Validate(f).Fail? && DocumentLengthMismatchesType in Validate(f).error.issues
    ensures f.typeLabel == "CNPJ" && !Aborted(f) && |Trim(f.document)| != 14 ==>
              Validate(f).Fail? && DocumentLengthMismatchesType in Validate(f).error.issues
  {
  }

  /**
   * The length bounds are implied by the type rule: a document the schema
   * accepts has exactly 11 or 14 characters once trimmed, never 12 or 13.
   */
  lemma AcceptedLengthIs11Or14(f: DocumentFields)
    requires Validate(f).Pass?
    ensures |Trim(f.document)| == 11 || |Trim(f.document)| == 14
    ensures |Trim(f.document)| != 12 && |Trim(f.document)| != 13
    ensures MinLength <= |Trim(f.document)| <= MaxLength
  {
  }
}

=== FILE: dynamodb_model.dfy ===
/**
 * CustomerDynamodbModel: the flat record a customer is stored as, its
 * DynamoDB attribute-map form, and the way back to a validated entity.
 */
module DynamoDbModel {
  import opened Wrappers
  import opened Time
  import opened Errors
  import opened DocumentTypes
  import opened DocumentValueObject
  import opened CustomerValidator
  import opened CustomerEntity
  import DocumentValidator

  /** A DynamoDB attribute value; only the string and map kinds are written by the core. */
  datatype AttributeValue =
    | S(s: string)
    | M(m: map<string, AttributeValue>)
    | N(n: string)
    | BOOL(b: bool)
    | NULL

  type Item = map<string, AttributeValue>

  datatype DocumentModel = DocumentModel(document: string, documentType: string, createdAt: string, updatedAt: string)

  datatype CustomerModel = CustomerModel(
    id: string, name: string, email: string, document: DocumentModel,
    createdAt: string, updatedAt: string)

  /** `fromEntity`: copies the fields, rendering each date as text. */
  function FromEntity(c: Customer): (m: CustomerModel)
    ensures m.id == c.Id() && m.name == c.name && m.email == c.email
    ensures m.document.document == c.document.document
    ensures m.document.documentType == Label(c.document.docType)
  {
    var document := DocumentModel(
      c.document.document, Label(c.document.docType),
      EncodeDate(c.document.CreatedAt()), EncodeDate(c.document.UpdatedAt()));
    CustomerModel(c.Id(), c.name, c.email, document, EncodeDate(c.CreatedAt()), EncodeDate(c.UpdatedAt()))
  }

  /** Each timestamp of the model reads back as the entity's instant. */
  lemma FromEntityDates(c: Customer)
    ensures DecodeDate(FromEntity(c).createdAt) == Date(c.CreatedAt())
    ensures DecodeDate(FromEntity(c).updatedAt) == Date(c.UpdatedAt())
    ensures DecodeDate(FromEntity(c).document.createdAt) == Date(c.document.CreatedAt())
    ensures DecodeDate(FromEntity(c).document.updatedAt) == Date(c.document.UpdatedAt())
  {
    DateRoundTrip(c.CreatedAt());
    DateRoundTrip(c.UpdatedAt());
    DateRoundTrip(c.document.CreatedAt());
    DateRoundTrip(c.document.UpdatedAt());
  }

  function DocumentItem(d: DocumentModel): Item {
    map["document" := S(d.document), "documentType" := S(d.documentType),
        "createdAt" := S(d.createdAt), "updatedAt" := S(d.updatedAt)]
  }

  /** `toDynamoDBItem`. */
  function ToItem(m: CustomerModel): (item: Item)
    ensures item.Keys == {"id", "name", "email", "document", "createdAt", "updatedAt"}
    ensures item["id"] == S(m.id)
  {
    map["id" := S(m.id), "name" := S(m.name), "email" := S(m.email),
        "document" := M(DocumentItem(m.document)),
        "createdAt" := S(m.createdAt), "updatedAt" := S(m.updatedAt)]
  }

  /** `toDynamoDbItemExpression`: the update values, keyed by placeholder, without the id. */
  function ToItemExpression(m: CustomerModel): (expr: Item)
    ensures expr.Keys == {":name", ":email", ":document", ":createdAt", ":updatedAt"}
  {
    map[":name" := S(m.name), ":email" := S(m.email),
        ":document" := M(DocumentItem(m.document)),
        ":createdAt" := S(m.createdAt), ":updatedAt" := S(m.updatedAt)]
  }

  /**
   * `attr.S ?? ''` for an attribute that must exist: a missing attribute is
   * a TypeError, one of another kind reads as the empty string.
   */
  function ReadS(item: Item, key: string): (r: Result<string, Error>)
    ensures key !in item ==> r.Failure? && r.error.TypeFault?
    ensures key in item && item[key].S? ==> r == Success(item[key].s)
    ensures key in item && !item[key].S? ==> r == Success("")
  {
    if key !in item then Failure(TypeFault("Cannot read properties of undefined (reading 'S')"))
    else if item[key].S? then Success(item[key].s)
    else Success("")
  }

  /**
   * The nested document: when `document` is not a map the optional chain
   * yields '' for all four fields.
   */
  function ReadDocument(item: Item): (r: Result<DocumentModel, Error>)
    ensures "document" !in item ==> r.Failure?
    ensures "document" in item && !item["document"].M? ==> r == Success(DocumentModel("", "", "", ""))
  {
    if "document" !in item then
      Failure(TypeFault("Cannot read properties of undefined (reading 'M')"))
    else match item["document"]
      case M(fields) =>
        var document :- ReadS(fields, "document");
        var documentType :- ReadS(fields, "documentType");
        var createdAt :- ReadS(fields, "createdAt");
        var updatedAt :- ReadS(fields, "updatedAt");
        Success(DocumentModel(document, documentType, createdAt, updatedAt))
      case _ => Success(DocumentModel("", "", "", ""))
  }

  /** `fromDynamoDBItem`. */
  function FromItem(item: Item): (r: Result<CustomerModel, Error>)
    ensures r.Failure? ==> r.error.TypeFault?
    ensures ("id" !in item || "name" !in item || "email" !in item || "document" !in item
             || "createdAt" !in item || "updatedAt" !in item) ==> r.Failure?
  {
    var document :- ReadDocument(item);
    var id :- ReadS(item, "id");
    var name :- ReadS(item, "name");
    var email :- ReadS(item, "email");
    var createdAt :- ReadS(item, "createdAt");
    var updatedAt :- ReadS(item, "updatedAt");
    Success(CustomerModel(id, name, email, document, createdAt, updatedAt))
  }

  /** `toEntity`: rebuilds the document, then the customer, validating both. */
  function ToEntity(m: CustomerModel, fmt: Formats): (r: Result<Customer, Error>)
    ensures r.Success? ==>
              && r.value.Id() == m.id && r.value.name == m.name && r.value.email == m.email
              && r.value.document.document == m.document.document
              && Label(r.value.document.docType) == m.document.documentType
              && DecodeDate(m.createdAt) == Date(r.value.CreatedAt())
              && DecodeDate(m.updatedAt) == Date(r.value.UpdatedAt())
              && DecodeDate(m.document.createdAt) == Date(r.value.document.CreatedAt())
              && DecodeDate(m.document.updatedAt) == Date(r.value.document.UpdatedAt())
              && CustomerEntity.Valid(r.value, fmt)
    // a stored record is rehydrated exactly when both schemas accept it
    ensures r.Success? <==>
              && DocumentValidator.WellFormed(DocumentFieldsOf(m))
              && fmt.isUuid(m.id) && 1 <= |m.name| <= MaxNameLength && fmt.isEmail(m.email)
              && DecodeDate(m.createdAt).Date? && DecodeDate(m.updatedAt).Date?
              && DecodeDate(m.createdAt).millis <= DecodeDate(m.updatedAt).millis
    ensures r.Failure? ==> r.error.ValidationDomain?
    ensures DocumentValidator.WellFormed(DocumentFieldsOf(m)) && r.Failure? ==>
              r.error.context == CustomerValidator.Context
    ensures !DocumentValidator.WellFormed(DocumentFieldsOf(m)) ==>
              r.Failure? && r.error.ValidationDomain? && r.error.context == DocumentValidator.Context
  {
    var document :- DocumentValueObject.With(DocumentFieldsOf(m));
    CustomerEntity.With(
      CustomerFields(m.id, m.name, m.email, Some(document), DecodeDate(m.createdAt), DecodeDate(m.updatedAt)),
      fmt)
  }

  function DocumentFieldsOf(m: CustomerModel): DocumentValidator.DocumentFields {
    DocumentValidator.DocumentFields(
      m.document.document, m.document.documentType,
      DecodeDate(m.document.createdAt), DecodeDate(m.document.updatedAt))
  }

  /** Reading an item back gives the model it was written from. */
  lemma ItemRoundTrip(m: CustomerModel)
    ensures FromItem(ToItem(m)) == Success(m)
  {
  }

  /** The update expression carries the item's values under `:`-prefixed names, and no id. */
  lemma ExpressionMatchesItem(m: CustomerModel)
    ensures var expr, item := ToItemExpression(m), ToItem(m);
            && expr[":name"] == item["name"] && expr[":email"] == item["email"]
            && expr[":document"] == item["document"]
            && expr[":createdAt"] == item["createdAt"] && expr[":updatedAt"] == item["updatedAt"]
    ensures ":id" !in ToItemExpression(m)
  {
  }

  /** A stored string attribute of another kind than S reads back as ''. */
  lemma NonStringReadsEmpty(m: CustomerModel, n: string)
    ensures FromItem(ToItem(m)["name" := N(n)]) == Success(m.(name := ""))
    ensures FromItem(ToItem(m)["document" := NULL]) == Success(m.(document := DocumentModel("", "", "", "")))
  {
  }

  /**
   * A valid customer survives entity, model, item, model, entity with every
   * field intact: id, name, email, document and its type, and timestamps.
   */
  lemma EntityRoundTrip(c: Customer, fmt: Formats)
    requires CustomerEntity.Valid(c, fmt)
    ensures ToEntity(FromEntity(c), fmt) == Success(c)
    ensures FromItem(ToItem(FromEntity(c))).Success?
    ensures ToEntity(FromItem(ToItem(FromEntity(c))).value, fmt) == Success(c)
  {
    var m := FromEntity(c);
    ItemRoundTrip(m);
    FromEntityDates(c);
    assert DocumentFieldsOf(m) == DocumentValueObject.FieldsOf(c.document);
    DocumentValueObject.WithOfOwnFields(c.document);
    CustomerEntity.WithOfOwnFields(c, fmt);
  }

  /** A stored CPF document whose trimmed length is 14 is refused on the way back. */
  lemma MismatchedTypeRejected(m: CustomerModel, fmt: Formats)
    requires m.document.documentType == "CPF" && |Text.Trim(m.document.document)| == 14
    ensures ToEntity(m, fmt).Failure?
    ensures ToEntity(m, fmt).error.ValidationDomain?
  {
  }
}

=== FILE: dynamodb_repository.dfy ===
/**
 * CustomerDynamoDBRepository over a table modelled as a map from key to
 * item. The two scans of `findAll` are oracles passed in as functions: one
 * counts the matches of the keyword, the other returns one page of matching
 * items and the key the scan stopped at. Keyword matching itself is not
 * modelled.
 */
module DynamoDbRepository {
  import opened Wrappers
  import opened Text
  import opened Errors
  import opened CustomerValidator
  import opened CustomerEntity
  import opened DynamoDbModel
  import Repository
  import Maps

  const Context := "CustomerDynamoDBRepository"
  const DefaultPage := 1
  const DefaultPerPage := 10
  const MaxPerPage := 20

  /** The `customers` table: items keyed by their `id`. */
  type Table = map<string, Item>

  /** What a limited scan returns: the items and the id of `LastEvaluatedKey`, if any. */
  datatype ScanPage = ScanPage(items: seq<Item>, lastEvaluatedKey: Option<string>)

  /** The counting scan: the number of items matching a keyword. */
  type CountScan = string -> nat

  /** The page scan: keyword, `Limit`, and `ExclusiveStartKey` id. */
  type PageScan = (string, int, Option<string>) -> ScanPage

  /** `create`: a PutItem of the customer's item, replacing any item under the same key. */
  function Put(table: Table, c: Customer): (t: Table)
    ensures t.Keys == table.Keys + {c.Id()}
    ensures t[c.Id()] == ToItem(FromEntity(c))
    ensures forall k | k in table && k != c.Id() :: t[k] == table[k]
  {
    table[c.Id() := ToItem(FromEntity(c))]
  }

  /** One stored item back to a validated entity. */
  function Decode(item: Item, fmt: Formats): (r: Result<Customer, Error>)
    ensures r.Failure? ==> r.error.ValidationDomain? || r.error.TypeFault?
  {
    var m :- FromItem(item);
    ToEntity(m, fmt)
  }

  /** `findById`: nothing for a missing key, else the rehydrated customer. */
  function Get(table: Table, id: string, fmt: Formats): (r: Result<Option<Customer>, Error>)
    ensures id !in table ==> r == Success(None)
    ensures id in table ==> (r.Success? <==> Decode(table[id], fmt).Success?)
    ensures r.Success? && r.value.Some? ==> r.value.value == Decode(table[id], fmt).value
    ensures id in table && Decode(table[id], fmt).Failure? ==> r == Failure(Decode(table[id], fmt).error)
  {
    if id !in table then Success(None)
    else
      var c :- Decode(table[id], fmt);
      Success(Some(c))
  }

  /** The attributes `update` sets: `set #name = :name, #email = :email, ...`. */
  function SetAttributes(item: Item, expr: Item): (r: Item)
    requires {":name", ":email", ":updatedAt", ":document", ":createdAt"} <= expr.Keys
    ensures r.Keys == item.Keys + {"name", "email", "updatedAt", "document", "createdAt"}
    ensures r["name"] == expr[":name"] && r["email"] == expr[":email"]
    ensures r["updatedAt"] == expr[":updatedAt"] && r["document"] == expr[":document"]
    ensures r["createdAt"] == expr[":createdAt"]
    ensures forall a | a in item && a !in {"name", "email", "updatedAt", "document", "createdAt"} :: r[a] == item[a]
  {
    item["name" := expr[":name"]]["email" := expr[":email"]]["updatedAt" := expr[":updatedAt"]]
      ["document" := expr[":document"]]["createdAt" := expr[":createdAt"]]
  }

  /**
   * `update`: an UpdateItem keyed by the customer's id that overwrites name,
   * email, updatedAt, document and createdAt. Like UpdateItem, it creates
   * the item when the key is absent.
   */
  function UpdateItem(table: Table, c: Customer): (t: Table)
    ensures t.Keys == table.Keys + {c.Id()}
    ensures forall k | k in table && k != c.Id() :: t[k] == table[k]
  {
    var m := FromEntity(c);
    var current := if m.id in table then table[m.id] else map["id" := S(m.id)];
    table[m.id := SetAttributes(current, ToItemExpression(m))]
  }

  /** The update sets every attribute except the key to the value the model writes. */
  lemma UpdateItemOverwrites(table: Table, c: Customer)
    ensures var t := UpdateItem(table, c);
            && t[c.Id()]["name"] == S(c.name) && t[c.Id()]["email"] == S(c.email)
            && t[c.Id()]["document"] == ToItem(FromEntity(c))["document"]
            && t[c.Id()]["createdAt"] == ToItem(FromEntity(c))["createdAt"]
            && t[c.Id()]["updatedAt"] == ToItem(FromEntity(c))["updatedAt"]
  {
  }

  /**
   * Over an item with the repository's own layout for the same id (or no
   * item at all), `update` writes exactly what `create` would.
   */
  lemma UpdateItemIsPut(table: Table, c: Customer)
    requires c.Id() in table ==>
               table[c.Id()].Keys == ToItem(FromEntity(c)).Keys && table[c.Id()]["id"] == S(c.Id())
    ensures UpdateItem(table, c) == Put(table, c)
  {
    var m := FromEntity(c);
    if m.id in table {
      SetOverMatching(table[m.id], m);
    } else {
      SetOverMatching(map["id" := S(m.id)], m);
    }
  }

  /** Setting a model's values over an item with the same id and no foreign attribute yields that model's item. */
  lemma SetOverMatching(item: Item, m: CustomerModel)
    requires item.Keys <= ToItem(m).Keys && "id" in item && item["id"] == S(m.id)
    ensures SetAttributes(item, ToItemExpression(m)) == ToItem(m)
  {
    var lhs := SetAttributes(item, ToItemExpression(m));
    forall a | a in lhs
      ensures lhs[a] == ToItem(m)[a]
    {
    }
  }

  /** `delete`: removes the item under `id`, if any. */
  function DeleteItem(table: Table, id: string): (t: Table)
    ensures t.Keys == table.Keys - {id}
    ensures forall k | k in t :: t[k] == table[k]
  {
    table - {id}
  }

  /** The item `create` writes for a customer. */
  function Row(c: Customer): Item {
    ToItem(FromEntity(c))
  }

  /** The table holding exactly the items of a store's customers. */
  function Abs(store: Repository.Store): Table {
    Maps.MapValues(store, Row)
  }

  predicate AllValid(store: Repository.Store, fmt: Formats) {
    forall id | id in store :: CustomerEntity.Valid(store[id], fmt)
  }

  /** `create` on the table is the contract's `create` on the store. */
  lemma PutRefinesCreate(store: Repository.Store, c: Customer)
    ensures Put(Abs(store), c) == Abs(Repository.Create(store, c))
  {
    Maps.MapValuesUpdate(store, c.Id(), c, Row);
  }

  /** `update` on the table is the contract's whole-record overwrite. */
  lemma UpdateItemRefinesUpdate(store: Repository.Store, c: Customer)
    requires Repository.WellKeyed(store)
    ensures UpdateItem(Abs(store), c) == Abs(Repository.Update(store, c))
  {
    if c.Id() in store {
      assert store[c.Id()].Id() == c.Id();
    }
    UpdateItemIsPut(Abs(store), c);
    PutRefinesCreate(store, c);
  }

  /** `delete` on the table is the contract's `delete`. */
  lemma DeleteItemRefinesDelete(store: Repository.Store, id: string)
    ensures DeleteItem(Abs(store), id) == Abs(Repository.Delete(store, id))
  {
    Maps.MapValuesRemove(store, id, Row);
  }

  /** On a table of valid, well-keyed records, `findById` returns exactly the stored customer. */
  lemma GetRefinesFindById(store: Repository.Store, id: string, fmt: Formats)
    requires Repository.WellKeyed(store) && AllValid(store, fmt)
    ensures Get(Abs(store), id, fmt) == Success(Repository.FindById(store, id))
  {
    if id in store {
      EntityRoundTrip(store[id], fmt);
    }
  }

  /** Every item decoded, in order (`Items.map`), or the failure of the first item that does not decode. */
  function DecodeItems(items: seq<Item>, fmt: Formats): (r: Result<seq<Customer>, Error>)
    ensures r.Failure? ==> r.error.ValidationDomain? || r.error.TypeFault?
    ensures r.Success? <==> forall i | 0 <= i < |items| :: Decode(items[i], fmt).Success?
    ensures r.Success? ==>
              |r.value| == |items|
              && forall i | 0 <= i < |items| :: Decode(items[i], fmt) == Success(r.value[i])
  {
    MapResults(items, item => Decode(item, fmt))
  }

  /** `ExclusiveStartKey`: the cursor is used only when it is a non-empty string. */
  function StartKey(lastId: Option<string>): (k: Option<string>)
    ensures k.Some? <==> lastId.Some? && lastId.value != ""
    ensures k.Some? ==> k == lastId
  {
    if lastId.Some? && lastId.value != "" then lastId else None
  }

  function PageOf(data: Repository.PaginationData): int {
    data.page.OrElse(DefaultPage)
  }

  function PerPageOf(data: Repository.PaginationData): int {
    data.perPage.OrElse(DefaultPerPage)
  }

  /** The arguments `findAll` lets through to the scans. */
  predicate ArgumentsAccepted(keyword: string, data: Repository.PaginationData) {
    && 1 <= PageOf(data)
    && 1 <= PerPageOf(data) <= MaxPerPage
    && |Trim(keyword)| > 0
  }

  function TooManyMessage(perPage: int): string {
    "You are trying to get " + IntToDecimal(perPage) + " items, but the maximum is 20"
  }

  function PageTooLowMessage(page: int): string {
    "You are trying to get page " + IntToDecimal(page) + ", but the minimum is 1"
  }

  function TooFewMessage(perPage: int): string {
    "You are trying to get " + IntToDecimal(perPage) + " items, but the minimum is 1"
  }

  const EmptyKeywordMessage := "You are trying to get customers with empty keyword"

  /** `findAll`. */
  function FindAll(keyword: string, data: Repository.PaginationData, count: CountScan, scan: PageScan, fmt: Formats)
    : (r: Result<Repository.Pagination<Customer>, Error>)
    // the checks run in this order and the first failing one wins
    ensures PerPageOf(data) > MaxPerPage ==>
              r == Failure(Database(TooManyMessage(PerPageOf(data)), Context))
    ensures PerPageOf(data) <= MaxPerPage && PageOf(data) < 1 ==>
              r == Failure(Database(PageTooLowMessage(PageOf(data)), Context))
    ensures PerPageOf(data) <= MaxPerPage && PageOf(data) >= 1 && PerPageOf(data) < 1 ==>
              r == Failure(Database(TooFewMessage(PerPageOf(data)), Context))
    ensures 1 <= PerPageOf(data) <= MaxPerPage && PageOf(data) >= 1 && |Trim(keyword)| == 0 ==>
              r == Failure(Database(EmptyKeywordMessage, Context))
    ensures r.Failure? && r.error.Database? <==> !ArgumentsAccepted(keyword, data)
    // no match: an empty first page, whatever page was asked for
    ensures ArgumentsAccepted(keyword, data) && count(keyword) == 0 ==>
              r == Success(Repository.Pagination([], 0, PerPageOf(data), PageOf(data), None, None, None))
    // the envelope
    ensures r.Success? ==>
              && r.value.total == count(keyword)
              && r.value.perPage == PerPageOf(data)
              && r.value.currentPage == PageOf(data)
              && (r.value.next.Some? <==> r.value.lastId.Some?)
              && (r.value.next.Some? ==> r.value.next.value == PageOf(data) + 1)
    // a non-empty count: the page the scan returned, decoded in order
    ensures r.Success? && count(keyword) > 0 ==>
              var page := scan(keyword, PerPageOf(data), StartKey(data.lastId));
              && r.value.prev == (if PageOf(data) > 1 then Some(PageOf(data) - 1) else None)
              && r.value.lastId == page.lastEvaluatedKey
              && DecodeItems(page.items, fmt) == Success(r.value.items)
    // accepted arguments with matches: the search succeeds exactly when every scanned item decodes
    ensures ArgumentsAccepted(keyword, data) && count(keyword) > 0 ==>
              var decoded := DecodeItems(scan(keyword, PerPageOf(data), StartKey(data.lastId)).items, fmt);
              && (r.Success? <==> decoded.Success?)
              && (decoded.Failure? ==> r == Failure(decoded.error))
  {
    var page := PageOf(data);
    var perPage := PerPageOf(data);
    if perPage > MaxPerPage then Failure(Database(TooManyMessage(perPage), Context))
    else if page < 1 then Failure(Database(PageTooLowMessage(page), Context))
    else if perPage < 1 then Failure(Database(TooFewMessage(perPage), Context))
    // `!keyword` (the empty string) is covered by the trimmed-length test
    else if |Trim(keyword)| == 0 then Failure(Database(EmptyKeywordMessage, Context))
    else
      var total := count(keyword);
      if total == 0 then
        Success(Repository.Pagination([], 0, perPage, page, None, None, None))
      else
        var scanned := scan(keyword, perPage, StartKey(data.lastId));
        var customers :- DecodeItems(scanned.items, fmt);
        Success(Repository.Pagination(
          customers, total, perPage, page,
          if page > 1 then Some(page - 1) else None,
          if scanned.lastEvaluatedKey.Some? then Some(page + 1) else None,
          scanned.lastEvaluatedKey))
  }

  /** Asking for 21 items a page is refused, whatever else is asked, with the message spelled out. */
  lemma TwentyOneRefused(keyword: string, data: Repository.PaginationData, count: CountScan, scan: PageScan, fmt: Formats)
    requires PerPageOf(data) == 21
    ensures FindAll(keyword, data, count, scan, fmt)
              == Failure(Database("You are trying to get 21 items, but the maximum is 20", Context))
  {
    TooManyMessageOf21();
  }

  lemma TooManyMessageOf21()
    ensures TooManyMessage(21) == "You are trying to get 21 items, but the maximum is 20"
  {
    assert DigitChar(2) == '2' && DigitChar(1) == '1';
    assert NatToDecimal(2) == "2";
    assert IntToDecimal(21) == NatToDecimal(2) + [DigitChar(1)] == "21";
  }

  /** A scan that honours its `Limit` makes a page of at most `perPage` customers. */
  lemma PageWithinLimit(keyword: string, data: Repository.PaginationData, count: CountScan, scan: PageScan, fmt: Formats)
    requires forall k, l, s :: |scan(k, l, s).items| <= l
    ensures FindAll(keyword, data, count, scan, fmt).Success? ==>
              |FindAll(keyword, data, count, scan, fmt).value.items| <= PerPageOf(data)
  {
  }

  /** `total` is the un-paged count: it does not depend on page, perPage or cursor. */
  lemma TotalIndependentOfPaging(keyword: string, d1: Repository.PaginationData, d2: Repository.PaginationData,
                                 count: CountScan, scan: PageScan, fmt: Formats)
    requires FindAll(keyword, d1, count, scan, fmt).Success?
    requires FindAll(keyword, d2, count, scan, fmt).Success?
    ensures FindAll(keyword, d1, count, scan, fmt).value.total == FindAll(keyword, d2, count, scan, fmt).value.total
  {
  }

  /**
   * Following `next` with the returned `lastId` is always a legal request:
   * it passes every argument check, its scan resumes at that cursor (so the
   * page it returns is the decoded scan from `lastId`), and its `prev` points
   * back at the page it came from.
   */
  lemma FollowingNextIsAccepted(keyword: string, data: Repository.PaginationData,
                                count: CountScan, scan: PageScan, fmt: Formats)
    requires FindAll(keyword, data, count, scan, fmt).Success?
    requires FindAll(keyword, data, count, scan, fmt).value.next.Some?
    ensures var r := FindAll(keyword, data, count, scan, fmt).value;
            var follow := Repository.PaginationData(r.next, Some(r.perPage), r.lastId);
            && ArgumentsAccepted(keyword, follow)
            && (r.lastId.value != "" && FindAll(keyword, follow, count, scan, fmt).Success? ==>
                  DecodeItems(scan(keyword, r.perPage, r.lastId).items, fmt)
                    == Success(FindAll(keyword, follow, count, scan, fmt).value.items))
            && (FindAll(keyword, follow, count, scan, fmt).Success? ==>
                  FindAll(keyword, follow, count, scan, fmt).value.prev == Some(PageOf(data)))
  {
    var r := FindAll(keyword, data, count, scan, fmt).value;
    assert ArgumentsAccepted(keyword, data) && count(keyword) > 0;
    assert r.next == Some(PageOf(data) + 1) && r.perPage == PerPageOf(data);
    var follow := Repository.PaginationData(r.next, Some(r.perPage), r.lastId);
    assert PageOf(follow) == PageOf(data) + 1 && PerPageOf(follow) == PerPageOf(data);
  }
}

=== FILE: entity.dfy ===
/** The identity and timestamp part every entity carries. */
module EntityBase {
  import opened Wrappers

  datatype Entity = Entity(id: string, createdAt: int, updatedAt: int) {

    /** Records a change made at `now`. */
    function HasChanged(now: int): (e: Entity)
      ensures e.id == id && e.createdAt == createdAt && e.updatedAt == now
    {
      this.(updatedAt := now)
    }

    /**
     * Identity comparison against a possibly absent entity. The source's
     * reference-identity shortcut is subsumed: the same object has the same id.
     */
    predicate Equals(other: Option<Entity>)
    {
      other.Some? && other.value.id == id
    }
  }

  /** Absent entities are never equal; present ones are equal exactly when their ids are. */
  lemma EqualsIsById(e: Entity, other: Option<Entity>)
    ensures other.None? ==> !e.Equals(other)
    ensures other.Some? ==> (e.Equals(other) <==> e.id == other.value.id)
  {
  }

  /** Equality is an equivalence that ignores the timestamps. */
  lemma EqualsIsEquivalence(a: Entity, b: Entity, c: Entity)
    ensures a.Equals(Some(a))
    ensures a.Equals(Some(b)) ==> b.Equals(Some(a))
    ensures a.Equals(Some(b)) && b.Equals(Some(c)) ==> a.Equals(Some(c))
    ensures a.Equals(Some(a.(createdAt := b.createdAt, updatedAt := b.updatedAt)))
  {
  }

  /** A change keeps the entity equal to its former self and, with a clock that does not run back, ordered. */
  lemma HasChangedKeepsIdentity(e: Entity, now: int)
    requires e.createdAt <= e.updatedAt <= now
    ensures e.Equals(Some(e.HasChanged(now)))
    ensures e.HasChanged(now).createdAt <= e.HasChanged(now).updatedAt
  {
  }
}

=== FILE: errors.dfy ===
/**
 * The exception taxonomy of the core. Validation failures carry the set of
 * schema rules that failed instead of the formatted zod message.
 */
module Errors {

  /** One failed schema rule of a validator. */
  datatype Issue =
    // DocumentValueObjectZodValidator
    | DocumentTooShort
    | DocumentTooLong
    | DocumentTypeNotEnum
    | DocumentCreatedAtNotDate
    | DocumentUpdatedAtNotDate
    | DocumentCreatedAfterUpdated
    | DocumentLengthMismatchesType
    // CustomerEntityZodValidator
    | IdNotUuid
    | NameTooShort
    | NameTooLong
    | EmailInvalid
    | DocumentMissing
    | CreatedAtNotDate
    | UpdatedAtNotDate
    | CreatedAfterUpdated

  datatype Error =
    | ValidationDomain(issues: set<Issue>, context: string)
    | Domain(message: string, context: string)
    | BadRequestUsecase(message: string, context: string)
    | NotFoundUsecase(message: string, context: string)
    | Database(message: string, context: string)
      /** The JavaScript `TypeError` of reading a property of `undefined`. */
    | TypeFault(message: string)
}

=== FILE: find_by_id_customer.dfy ===
/** `FindByIdCustomerUsecase`: looks the customer up and returns its DTO. */
module FindByIdCustomer {
  import opened Wrappers
  import opened Errors
  import opened CustomerEntity
  import opened Repository
  import opened Usecase

  const Name := "FindByIdCustomerUsecase"

  /** `execute`: one `findById` call and no change to the store. */
  function Execute(store: Store, id: string): (run: Run<CustomerDto>)
    ensures run.calls == [FindByIdCall(id)] && run.store == store
    ensures run.result.Failure? <==> id !in store
    ensures run.result.Failure? ==> run.result.error == NotFoundUsecase(NotFoundMessage(id, Name), Name)
    ensures run.result.Success? ==>
              var c := store[id];
              && run.result.value.id == c.Id() && run.result.value.name == c.name
              && run.result.value.email == c.email && run.result.value.document == c.document.document
              && run.result.value.createdAt == c.CreatedAt() && run.result.value.updatedAt == c.UpdatedAt()
  {
    match Repository.FindById(store, id)
    case None => Run([FindByIdCall(id)], store, Failure(NotFoundUsecase(NotFoundMessage(id, Name), Name)))
    case Some(c) => Run([FindByIdCall(id)], store, Success(ToDto(c)))
  }
}

=== FILE: maps.dfy ===
/** Applying a function to every value of a map, and how that commutes with updates. */
module Maps {
  function MapValues<K, V, W>(m: map<K, V>, f: V -> W): (r: map<K, W>)
    ensures r.Keys == m.Keys
    ensures forall k | k in m :: r[k] == f(m[k])
  {
    map k | k in m :: f(m[k])
  }

  lemma MapValuesUpdate<K, V, W>(m: map<K, V>, k: K, v: V, f: V -> W)
    ensures MapValues(m[k := v], f) == MapValues(m, f)[k := f(v)]
  {
    var lhs, rhs := MapValues(m[k := v], f), MapValues(m, f)[k := f(v)];
    assert lhs.Keys == rhs.Keys;
  }

  lemma MapValuesRemove<K, V, W>(m: map<K, V>, k: K, f: V -> W)
    ensures MapValues(m - {k}, f) == MapValues(m, f) - {k}
  {
    var lhs, rhs := MapValues(m - {k}, f), MapValues(m, f) - {k};
    assert lhs.Keys == rhs.Keys;
  }
}

=== FILE: repository.dfy ===
/**
 * The repository contract the use cases depend on, with its storage
 * modelled as a map from id to customer, and the pagination envelope.
 */
module Repository {
  import opened Wrappers
  import opened Errors
  import opened CustomerEntity

  /** The optional paging arguments of `findAll`. */
  datatype PaginationData = PaginationData(page: Option<int>, perPage: Option<int>, lastId: Option<string>)

  /** The result envelope of `findAll`. */
  datatype Pagination<T> = Pagination(
    items: seq<T>, total: int, perPage: int, currentPage: int,
    prev: Option<int>, next: Option<int>, lastId: Option<string>)

  /** The stored customers, keyed by id. */
  type Store = map<string, Customer>

  /** Every record sits under its own id. */
  predicate WellKeyed(store: Store) {
    forall id | id in store :: store[id].Id() == id
  }

  /** `findAll` as the use cases see it: any implementation of the contract. */
  type FindAll = (string, PaginationData) -> Result<Pagination<Customer>, Error>

  /** A call made on the repository, as a test double would record it. */
  datatype Call =
    | CreateCall(customer: Customer)
    | FindByIdCall(id: string)
    | FindAllCall(keyword: string, data: PaginationData)
    | UpdateCall(customer: Customer)
    | DeleteCall(id: string)

  /** `create`: stores the customer under its id. */
  function Create(store: Store, c: Customer): (s: Store)
    ensures s.Keys == store.Keys + {c.Id()}
    ensures c.Id() in s && s[c.Id()] == c
    ensures forall id | id in store && id != c.Id() :: s[id] == store[id]
    ensures WellKeyed(store) ==> WellKeyed(s)
  {
    store[c.Id() := c]
  }

  /** `findById`: the stored customer, or nothing. */
  function FindById(store: Store, id: string): (r: Option<Customer>)
    ensures r.Some? <==> id in store
    ensures r.Some? ==> r.value == store[id]
  {
    if id in store then Some(store[id]) else None
  }

  /** `update`: overwrites the whole record stored under the customer's id. */
  function Update(store: Store, c: Customer): (s: Store)
    ensures s.Keys == store.Keys + {c.Id()}
    ensures c.Id() in s && s[c.Id()] == c
    ensures forall id | id in store && id != c.Id() :: s[id] == store[id]
    ensures WellKeyed(store) ==> WellKeyed(s)
  {
    store[c.Id() := c]
  }

  /** `delete`: removes the record stored under `id`, if any. */
  function Delete(store: Store, id: string): (s: Store)
    ensures s.Keys == store.Keys - {id}
    ensures forall k | k in s :: s[k] == store[k]
    ensures WellKeyed(store) ==> WellKeyed(s)
  {
    store - {id}
  }

  /** A created customer is found under its id; a deleted one is not. */
  lemma CreateFindDelete(store: Store, c: Customer)
    ensures FindById(Create(store, c), c.Id()) == Some(c)
    ensures FindById(Delete(Create(store, c), c.Id()), c.Id()) == None
    ensures forall id | id != c.Id() :: FindById(Create(store, c), id) == FindById(store, id)
  {
  }
}

=== FILE: search_customer.dfy ===
/**
 * `SearchCustomerUsecase`: fills in the default page and page size, asks
 * the repository's `findAll` and maps the page to DTOs.
 */
module SearchCustomer {
  import opened Wrappers
  import opened Errors
  import opened CustomerValidator
  import opened CustomerEntity
  import opened Repository
  import opened Usecase
  import DynamoDbRepository

  const DefaultPage := 1
  const DefaultPerPage := 10

  datatype SearchInput = SearchInput(keyword: string, page: Option<int>, perPage: Option<int>, lastId: Option<string>)

  datatype SearchOutput = SearchOutput(
    result: seq<CustomerDto>, total: int, page: int, perPage: int,
    next: Option<int>, prev: Option<int>, lastId: Option<string>)

  /** The paging arguments passed on to `findAll`, with the use case's defaults filled in. */
  function Request(input: SearchInput): (data: PaginationData)
    ensures data.page.Some? && data.perPage.Some? && data.lastId == input.lastId
    ensures input.page.Some? ==> data.page == input.page
    ensures input.page.None? ==> data.page == Some(DefaultPage)
    ensures input.perPage.Some? ==> data.perPage == input.perPage
    ensures input.perPage.None? ==> data.perPage == Some(DefaultPerPage)
  {
    PaginationData(Some(input.page.OrElse(DefaultPage)), Some(input.perPage.OrElse(DefaultPerPage)), input.lastId)
  }

  function DtosOf(items: seq<Customer>): (dtos: seq<CustomerDto>)
    ensures |dtos| == |items|
    ensures forall i | 0 <= i < |items| :: dtos[i] == ToDto(items[i])
  {
    seq(|items|, i requires 0 <= i < |items| => ToDto(items[i]))
  }

  /**
   * `execute` against any `findAll`: one call with the defaults filled in, a
   * failure passed through unchanged, and on success the envelope copied
   * except `page`, which is the page asked for.
   */
  function Execute(store: Store, input: SearchInput, findAll: FindAll): (run: Run<SearchOutput>)
    ensures run.calls == [FindAllCall(input.keyword, Request(input))] && run.store == store
    ensures findAll(input.keyword, Request(input)).Failure? ==>
              run.result == Failure(findAll(input.keyword, Request(input)).error)
    ensures findAll(input.keyword, Request(input)).Success? ==>
              var p := findAll(input.keyword, Request(input)).value;
              && run.result.Success?
              && run.result.value.page == Request(input).page.value
              && run.result.value.total == p.total && run.result.value.perPage == p.perPage
              && run.result.value.next == p.next && run.result.value.prev == p.prev
              && run.result.value.lastId == p.lastId
              && |run.result.value.result| == |p.items|
              && forall i | 0 <= i < |p.items| ::
                   var c := p.items[i];
                   run.result.value.result[i]
                     == CustomerDto(c.Id(), c.name, c.email, c.document.document, c.CreatedAt(), c.UpdatedAt())
  {
    var data := Request(input);
    var calls := [FindAllCall(input.keyword, data)];
    match findAll(input.keyword, data)
    case Failure(e) => Run(calls, store, Failure(e))
    case Success(p) =>
      Run(calls, store, Success(SearchOutput(DtosOf(p.items), p.total, data.page.value, p.perPage, p.next, p.prev, p.lastId)))
  }

  /** The use case over the DynamoDB repository, whose scans are `count` and `scan`. */
  function OverDynamoDb(count: DynamoDbRepository.CountScan, scan: DynamoDbRepository.PageScan, fmt: Formats): FindAll {
    (keyword, data) => DynamoDbRepository.FindAll(keyword, data, count, scan, fmt)
  }

  /**
   * Over the DynamoDB repository, the use case's defaults are always within
   * the repository's bounds: with no page and no page size, a non-blank
   * keyword is never refused, the page reported is 1, and the page holds
   * at most 10 customers whenever the scan respects its limit.
   */
  lemma DefaultsAccepted(store: Store, keyword: string, lastId: Option<string>,
                         count: DynamoDbRepository.CountScan, scan: DynamoDbRepository.PageScan, fmt: Formats)
    requires |Text.Trim(keyword)| > 0
    ensures var run := Execute(store, SearchInput(keyword, None, None, lastId), OverDynamoDb(count, scan, fmt));
            && (run.result.Failure? ==> !run.result.error.Database?)
            && (run.result.Success? ==> run.result.value.page == 1 && run.result.value.perPage == 10)
    ensures (forall k, l, s :: |scan(k, l, s).items| <= l) ==>
              var run := Execute(store, SearchInput(keyword, None, None, lastId), OverDynamoDb(count, scan, fmt));
              run.result.Success? ==> |run.result.value.result| <= 10
  {
    var data := Request(SearchInput(keyword, None, None, lastId));
    assert DynamoDbRepository.PageOf(data) == 1 && DynamoDbRepository.PerPageOf(data) == 10;
    assert DynamoDbRepository.ArgumentsAccepted(keyword, data);
    var r := DynamoDbRepository.FindAll(keyword, data, count, scan, fmt);
    assert r.Failure? ==> !r.error.Database?;
    assert r.Success? ==> r.value.perPage == 10;
    assert OverDynamoDb(count, scan, fmt)(keyword, data) == r;
    if forall k, l, s :: |scan(k, l, s).items| <= l {
      DynamoDbRepository.PageWithinLimit(keyword, data, count, scan, fmt);
    }
  }

  /** Over the DynamoDB repository, asking for 21 customers a page is refused with the repository's message. */
  lemma TooLargePageRefused(store: Store, keyword: string, count: DynamoDbRepository.CountScan,
                            scan: DynamoDbRepository.PageScan, fmt: Formats)
    ensures var run := Execute(store, SearchInput(keyword, None, Some(21), None), OverDynamoDb(count, scan, fmt));
            run.result == Failure(Database("You are trying to get 21 items, but the maximum is 20", DynamoDbRepository.Context))
  {
    var data := Request(SearchInput(keyword, None, Some(21), None));
    DynamoDbRepository.TwentyOneRefused(keyword, data, count, scan, fmt);
    assert OverDynamoDb(count, scan, fmt)(keyword, data) == DynamoDbRepository.FindAll(keyword, data, count, scan, fmt);
  }
}

=== FILE: text.dfy ===
/**
 * String helpers the core relies on: JavaScript's `String.prototype.trim`
 * and the decimal rendering of integers used in messages and timestamps.
 */
module Text {

  /**
   * The characters `trim` removes: WhiteSpace and LineTerminator of
   * ECMA-262 (section "String.prototype.trim", via TrimString).
   */
  predicate IsWhitespace(c: char) {
    || c == '\t' || c == '\n' || c == '\U{000B}' || c == '\U{000C}' || c == '\r'
    || c == ' ' || c == '\U{00A0}' || c == '\U{1680}'
    || ('\U{2000}' <= c <= '\U{200A}')
    || c == '\U{2028}' || c == '\U{2029}' || c == '\U{202F}' || c == '\U{205F}'
    || c == '\U{3000}' || c == '\U{FEFF}'
  }

  predicate AllWhitespace(s: string) {
    forall k | 0 <= k < |s| :: IsWhitespace(s[k])
  }

  predicate NoWhitespace(s: string) {
    forall k | 0 <= k < |s| :: !IsWhitespace(s[k])
  }

  /** `s` with its leading whitespace removed. */
  function TrimStart(s: string): (r: string)
    ensures |r| <= |s| && r == s[|s| - |r|..]
    ensures |r| > 0 ==> !IsWhitespace(r[0])
    ensures AllWhitespace(s[..|s| - |r|])
    decreases |s|
  {
    if |s| > 0 && IsWhitespace(s[0]) then
      var r := TrimStart(s[1..]);
      assert s[1..][..|s[1..]| - |r|] == s[1..|s| - |r|];
      r
    else
      s
  }

  /** `s` with its trailing whitespace removed. */
  function TrimEnd(s: string): (r: string)
    ensures |r| <= |s| && r == s[..|r|]
    ensures |r| > 0 ==> !IsWhitespace(r[|r| - 1])
    ensures AllWhitespace(s[|r|..])
    decreases |s|
  {
    if |s| > 0 && IsWhitespace(s[|s| - 1]) then
      var r := TrimEnd(s[..|s| - 1]);
      assert s[..|s| - 1][|r|..] == s[|r|..|s| - 1];
      r
    else
      s
  }

  /** JavaScript's `s.trim()`. */
  function Trim(s: string): (r: string)
    ensures |r| <= |s|
    ensures |r| > 0 ==> !IsWhitespace(r[0]) && !IsWhitespace(r[|r| - 1])
  {
    TrimEnd(TrimStart(s))
  }

  lemma {:induction false} TrimStartOfPadded(pad: string, t: string)
    requires AllWhitespace(pad)
    requires |t| > 0 ==> !IsWhitespace(t[0])
    ensures TrimStart(pad + t) == t
    decreases |pad|
  {
    if |pad| > 0 {
      assert (pad + t)[1..] == pad[1..] + t;
      TrimStartOfPadded(pad[1..], t);
    } else {
      assert pad + t == t;
    }
  }

  lemma {:induction false} TrimEndOfPadded(t: string, pad: string)
    requires AllWhitespace(pad)
    requires |t| > 0 ==> !IsWhitespace(t[|t| - 1])
    ensures TrimEnd(t + pad) == t
    decreases |pad|
  {
    if |pad| > 0 {
      assert (t + pad)[..|t + pad| - 1] == t + pad[..|pad| - 1];
      TrimEndOfPadded(t, pad[..|pad| - 1]);
    } else {
      assert t + pad == t;
    }
  }

  /**
   * Trim removes exactly the surrounding whitespace: whatever whitespace
   * pads a core that neither starts nor ends with whitespace, trimming
   * gives back that core.
   */
  lemma TrimOfPadded(before: string, core: string, after: string)
    requires AllWhitespace(before) && AllWhitespace(after)
    requires |core| > 0 ==> !IsWhitespace(core[0]) && !IsWhitespace(core[|core| - 1])
    ensures Trim(before + core + after) == core
  {
    if |core| > 0 {
      assert (core + after)[0] == core[0];
      assert before + core + after == before + (core + after);
      TrimStartOfPadded(before, core + after);
      TrimEndOfPadded(core, after);
    } else {
      assert before + core + after == before + after;
      assert AllWhitespace(before + after);
      TrimStartOfPadded(before + after, "");
      assert before + after == (before + after) + "";
      TrimEndOfPadded("", "");
    }
  }

  /** A string without any whitespace is its own trim. */
  lemma TrimOfUnpadded(s: string)
    requires NoWhitespace(s)
    ensures Trim(s) == s
  {
    assert "" + s + "" == s;
    TrimOfPadded("", s, "");
  }

  predicate IsDigit(c: char) {
    '0' <= c <= '9'
  }

  predicate AllDigits(s: string) {
    forall k | 0 <= k < |s| :: IsDigit(s[k])
  }

  function DigitValue(c: char): (d: nat)
    requires IsDigit(c)
    ensures d < 10
  {
    c as int - '0' as int
  }

  function DigitChar(d: nat): (c: char)
    requires d < 10
    ensures IsDigit(c) && DigitValue(c) == d
  {
    (d + '0' as int) as char
  }

  /** The decimal digits of `n`, without leading zeros. */
  function NatToDecimal(n: nat): (r: string)
    ensures |r| > 0 && AllDigits(r)
    ensures |r| > 1 ==> r[0] != '0'
    decreases n
  {
    if n < 10 then [DigitChar(n)] else NatToDecimal(n / 10) + [DigitChar(n % 10)]
  }

  /** The number a string of decimal digits denotes. */
  function DecimalValue(s: string): nat
    requires AllDigits(s)
    decreases |s|
  {
    if |s| == 0 then 0 else DecimalValue(s[..|s| - 1]) * 10 + DigitValue(s[|s| - 1])
  }

  /** Reading back the decimal rendering of `n` gives `n`. */
  lemma {:induction false} DecimalRoundTrip(n: nat)
    ensures DecimalValue(NatToDecimal(n)) == n
    decreases n
  {
    if n >= 10 {
      var r := NatToDecimal(n);
      assert r[..|r| - 1] == NatToDecimal(n / 10);
      DecimalRoundTrip(n / 10);
    }
  }

  /** JavaScript's rendering of an integral number, as in a template literal. */
  function IntToDecimal(i: int): (r: string)
    ensures |r| > 0
    ensures i >= 0 ==> AllDigits(r)
    ensures i < 0 ==> r[0] == '-' && AllDigits(r[1..])
  {
    if i < 0 then "-" + NatToDecimal(-i) else NatToDecimal(i)
  }
}

=== FILE: time.dfy ===
/**
 * JavaScript `Date` values and their text form. A date is a millisecond
 * count or the "Invalid Date" that `new Date(text)` yields for text it
 * cannot read. The ISO-8601 text of `toISOString` is represented by the
 * signed decimal millisecond count: all the core needs of it is that
 * reading the text back gives the same instant.
 */
module Time {
  import opened Text

  datatype Date = Date(millis: int) | InvalidDate

  /** `date.toISOString()` for a valid date. */
  function EncodeDate(t: int): (s: string)
    ensures |s| > 0
  {
    IntToDecimal(t)
  }

  /** `new Date(s)`: the instant the text denotes, or an invalid date. */
  function DecodeDate(s: string): (d: Date)
    ensures s == "" ==> d == InvalidDate
    ensures d.Date? ==> |s| > 0
  {
    if |s| > 1 && s[0] == '-' && AllDigits(s[1..]) then Date(0 - DecimalValue(s[1..]) as int)
    else if |s| > 0 && AllDigits(s) then Date(DecimalValue(s))
    else InvalidDate
  }

  /** Every valid instant survives the trip through its text form. */
  lemma DateRoundTrip(t: int)
    ensures DecodeDate(EncodeDate(t)) == Date(t)
  {
    if t < 0 {
      var s := EncodeDate(t);
      assert s[1..] == NatToDecimal(-t);
      DecimalRoundTrip(-t);
    } else {
      DecimalRoundTrip(t);
    }
  }

  /** Distinct instants have distinct text forms. */
  lemma EncodeDateInjective(a: int, b: int)
    requires EncodeDate(a) == EncodeDate(b)
    ensures a == b
  {
    DateRoundTrip(a);
    DateRoundTrip(b);
  }
}

=== FILE: update_customer.dfy ===
/**
 * `UpdateCustomerUsecase`: finds the customer, applies the three mutators in
 * order and, only if none of them threw, writes the whole record back.
 */
module UpdateCustomer {
  import opened Wrappers
  import opened Errors
  import opened Text
  import opened DocumentTypes
  import opened CustomerValidator
  import opened CustomerEntity
  import opened Repository
  import opened Usecase
  import CreateCustomer

  const Name := "UpdateCustomerUsecase"

  datatype UpdateInput = UpdateInput(id: string, name: string, email: string, document: string, customerType: string)

  /**
   * The document type label the use case passes to `updateDocument`: CPF for
   * an individual, CNPJ for any other customer type, so an unknown type is
   * never rejected here.
   */
  function DocumentLabel(customerType: string): (tag: string)
    ensures ParseLabel(tag).Some?
    ensures tag == "CPF" <==> customerType == CreateCustomer.Individual
  {
    if customerType == CreateCustomer.Individual then "CPF" else "CNPJ"
  }

  /** The three mutators in source order; the first exception aborts the rest. */
  function Mutate(c: Customer, name: string, email: string, document: string, typeLabel: string, now: int, fmt: Formats)
    : (r: Result<Customer, Error>)
    ensures r.Success? ==>
              var u := r.value;
              && u.Id() == c.Id() && u.CreatedAt() == c.CreatedAt() && u.UpdatedAt() == now
              && u.name == name && u.email == email
              && u.document.document == document && Label(u.document.docType) == typeLabel
              && u.document.CreatedAt() == now && u.document.UpdatedAt() == now
              && DocumentValueObject.Valid(u.document)
    // the first mutator that throws decides the error
    ensures var named := UpdateName(c, name, now, fmt);
            named.thrown.Some? ==> r == Failure(named.thrown.value)
    ensures var named := UpdateName(c, name, now, fmt);
            var mailed := UpdateEmail(named.after, email, now, fmt);
            named.thrown.None? && mailed.thrown.Some? ==> r == Failure(mailed.thrown.value)
    ensures var named := UpdateName(c, name, now, fmt);
            var mailed := UpdateEmail(named.after, email, now, fmt);
            var documented := UpdateDocument(mailed.after, document, typeLabel, now, fmt);
            named.thrown.None? && mailed.thrown.None? && documented.thrown.Some? ==>
              r == Failure(documented.thrown.value)
  {
    var named := UpdateName(c, name, now, fmt);
    if named.thrown.Some? then Failure(named.thrown.value)
    else
      var mailed := UpdateEmail(named.after, email, now, fmt);
      if mailed.thrown.Some? then Failure(mailed.thrown.value)
      else
        var documented := UpdateDocument(mailed.after, document, typeLabel, now, fmt);
        if documented.thrown.Some? then Failure(documented.thrown.value)
        else Success(documented.after)
  }

  /**
   * On a valid customer and a clock that does not run back, the mutators all
   * pass exactly when each new value would pass on its own, and the result
   * is valid.
   */
  lemma MutateOnValid(c: Customer, name: string, email: string, document: string, typeLabel: string, now: int, fmt: Formats)
    requires Valid(c, fmt) && now >= c.UpdatedAt()
    ensures var r := Mutate(c, name, email, document, typeLabel, now, fmt);
            r.Success? <==>
              && 1 <= |name| <= MaxNameLength && fmt.isEmail(email)
              && ParseLabel(typeLabel).Some? && |Trim(document)| == RequiredLength(ParseLabel(typeLabel).value)
    ensures var r := Mutate(c, name, email, document, typeLabel, now, fmt);
            r.Success? ==> Valid(r.value, fmt)
  {
    UpdateNameOnValid(c, name, now, fmt);
    var named := UpdateName(c, name, now, fmt);
    if named.thrown.None? {
      UpdateEmailOnValid(named.after, email, now, fmt);
      var mailed := UpdateEmail(named.after, email, now, fmt);
      if mailed.thrown.None? {
        UpdateDocumentOnValid(mailed.after, document, typeLabel, now, fmt);
      }
    }
  }

  /**
   * `execute` at clock reading `now`. The repository is only written when
   * every mutator succeeded; the in-memory changes a failing mutator leaves
   * behind are never stored.
   */
  function Execute(store: Store, input: UpdateInput, now: int, fmt: Formats): (run: Run<string>)
    ensures |run.calls| > 0 && run.calls[0] == FindByIdCall(input.id)
    ensures input.id !in store ==>
              run == Run([FindByIdCall(input.id)], store, Failure(NotFoundUsecase(NotFoundMessage(input.id, Name), Name)))
    ensures run.result.Failure? ==> run.calls == [FindByIdCall(input.id)] && run.store == store
    // a found customer: the mutators' exception, if any, propagates unchanged
    ensures input.id in store ==>
              var mutated := Mutate(store[input.id], input.name, input.email, input.document,
                                    DocumentLabel(input.customerType), now, fmt);
              && (run.result.Success? <==> mutated.Success?)
              && (mutated.Failure? ==> run.result == Failure(mutated.error))
    ensures run.result.Success? ==>
              && input.id in store
              && |run.calls| == 2 && run.calls[1].UpdateCall?
              && var u := run.calls[1].customer;
              && run.store == Repository.Update(store, u)
              && run.result.value == u.Id() == store[input.id].Id()
              && u.CreatedAt() == store[input.id].CreatedAt() && u.UpdatedAt() == now
              && u.name == input.name && u.email == input.email
              && u.document.document == input.document
              && Label(u.document.docType) == DocumentLabel(input.customerType)
              && u.document.CreatedAt() == now && u.document.UpdatedAt() == now
              && DocumentValueObject.Valid(u.document)
  {
    match Repository.FindById(store, input.id)
    case None =>
      Run([FindByIdCall(input.id)], store, Failure(NotFoundUsecase(NotFoundMessage(input.id, Name), Name)))
    case Some(c) =>
      var mutated := Mutate(c, input.name, input.email, input.document, DocumentLabel(input.customerType), now, fmt);
      if mutated.Failure? then Run([FindByIdCall(input.id)], store, Failure(mutated.error))
      else
        var u := mutated.value;
        Run([FindByIdCall(input.id), UpdateCall(u)], Repository.Update(store, u), Success(u.Id()))
  }

  /**
   * On a valid stored customer and a clock that does not run back, the
   * update succeeds exactly when the new name has 1 to 255 characters, the
   * email is accepted and the trimmed document has the length of the type
   * the customer type selects; the record written is valid again.
   */
  lemma UpdateOnValid(store: Store, input: UpdateInput, now: int, fmt: Formats)
    requires input.id in store && Valid(store[input.id], fmt) && now >= store[input.id].UpdatedAt()
    ensures var run := Execute(store, input, now, fmt);
            run.result.Success? <==>
              && 1 <= |input.name| <= MaxNameLength && fmt.isEmail(input.email)
              && |Trim(input.document)| == RequiredLength(ParseLabel(DocumentLabel(input.customerType)).value)
    ensures var run := Execute(store, input, now, fmt);
            run.result.Success? ==> Valid(run.calls[1].customer, fmt)
  {
    MutateOnValid(store[input.id], input.name, input.email, input.document, DocumentLabel(input.customerType), now, fmt);
  }

  /**
   * A rejected name is reported alone: the email is only validated after the
   * name was accepted, so an also-invalid email does not show in the error.
   */
  lemma NameCheckedFirst(store: Store, input: UpdateInput, now: int, fmt: Formats)
    requires input.id in store && Valid(store[input.id], fmt)
    requires |input.name| == 0 || |input.name| > MaxNameLength
    ensures var run := Execute(store, input, now, fmt);
            && run.result.Failure? && run.store == store
            && run.result.error == ValidationDomain(
                 {if |input.name| == 0 then NameTooShort else NameTooLong}, CustomerValidator.Context)
  {
    var c := store[input.id];
    CustomerValidator.OnlyNameIssues(FieldsOf(c.(name := input.name)), fmt);
  }

  /** Any customer type other than "individual" updates exactly as "legal" does. */
  lemma UnknownTypeUpdatesAsLegal(store: Store, input: UpdateInput, now: int, fmt: Formats)
    requires input.customerType != CreateCustomer.Individual
    ensures Execute(store, input, now, fmt) == Execute(store, input.(customerType := CreateCustomer.Legal), now, fmt)
  {
    assert DocumentLabel(input.customerType) == DocumentLabel(CreateCustomer.Legal);
  }
}

=== FILE: usecase.dfy ===
/**
 * What the use cases share: the record of one execution (the repository
 * calls it made, the store it left behind and what it returned or threw)
 * and the customer DTO the read use cases hand out.
 */
module Usecase {
  import opened Wrappers
  import opened Errors
  import opened CustomerEntity
  import opened Repository

  /** One execution of a use case against a store. */
  datatype Run<T> = Run(calls: seq<Call>, store: Store, result: Result<T, Error>)

  /** The flat view of a customer returned by `findById` and `search`. */
  datatype CustomerDto = CustomerDto(
    id: string, name: string, email: string, document: string, createdAt: int, updatedAt: int)

  /** The DTO of a customer: the raw document text and the two timestamps, no document type. */
  function ToDto(c: Customer): CustomerDto {
    CustomerDto(c.Id(), c.name, c.email, c.document.document, c.CreatedAt(), c.UpdatedAt())
  }

  /** The message of a `NotFoundUsecaseException` raised by use case `usecase` for `id`. */
  function NotFoundMessage(id: string, usecase: string): string {
    "Customer with id " + id + " not found while " + usecase + "."
  }
}

=== FILE: value_object.dfy ===
/** The timestamp part every value object carries. */
module ValueObjectBase {

  datatype ValueObject = ValueObject(createdAt: int, updatedAt: int)
}

=== FILE: wrappers.dfy ===
/**
 * The source's `null`/`undefined` and its thrown exceptions, as values. `Result`
 * supports `:-`, so a function can stop at the first exception as the source does.
 */
module Wrappers {

  /** A nullable value. */
  datatype Option<+T> = None | Some(value: T) {

    /** `x ?? fallback`. */
    function OrElse(fallback: T): T {
      if Some? then value else fallback
    }
  }

  /** What a call returned, or what it threw. */
  datatype Result<+R, +E> = Success(value: R) | Failure(error: E) {

    predicate IsFailure() {
      Failure?
    }

    function PropagateFailure<U>(): Result<U, E>
      requires Failure?
    {
      Failure(error)
    }

    function Extract(): R
      requires Success?
    {
      value
    }
  }

  /** What a `void` call threw, if anything. */
  datatype Outcome<+E> = Pass | Fail(error: E)

  /**
   * Applies `f` to every element in order (`Array.prototype.map` with a
   * callback that may throw): every value, or the failure of the first
   * element that fails.
   */
  function MapResults<A, B(==), E(==)>(xs: seq<A>, f: A -> Result<B, E>): (r: Result<seq<B>, E>)
    ensures r.Success? <==> forall i | 0 <= i < |xs| :: f(xs[i]).Success?
    ensures r.Success? ==> |r.value| == |xs| && forall i | 0 <= i < |xs| :: f(xs[i]) == Success(r.value[i])
    ensures r.Failure? ==>
              exists i | 0 <= i < |xs| ::
                f(xs[i]) == Failure(r.error) && forall j | 0 <= j < i :: f(xs[j]).Success?
    decreases |xs|
  {
    if |xs| == 0 then Success([])
    else
      match f(xs[0])
      case Failure(e) => Failure(e)
      case Success(first) =>
        match MapResults(xs[1..], f)
        case Failure(e) =>
          assert exists i | 0 <= i < |xs| - 1 ::
                   f(xs[1..][i]) == Failure(e) && forall j | 0 <= j < i :: f(xs[1..][j]).Success?;
          var i :| 0 <= i < |xs| - 1 && f(xs[1..][i]) == Failure(e) && forall j | 0 <= j < i :: f(xs[1..][j]).Success?;
          assert f(xs[i + 1]) == Failure(e);
          assert forall j | 0 <= j < i + 1 :: f(xs[j]).Success? by {
            forall j | 0 <= j < i + 1
              ensures f(xs[j]).Success?
            {
              if j > 0 {
                assert xs[j] == xs[1..][j - 1];
              }
            }
          }
          Failure(e)
        case Success(rest) =>
          assert forall i | 0 <= i < |xs| - 1 :: xs[1..][i] == xs[i + 1];
          Success([first] + rest)
  }
}
